=== FILE: README.md ===
# talktome core, modelled in Dafny

talktome is a language-exchange web application: learners and tutors sign up,
log in, find each other by language, connect, send each other messages, and
upload recordings of their conversations to be transcribed with speakers told
apart. This project models the domain rules of its Express back end and two
pieces of client logic as pure Dafny functions over immutable values, and
proves what those rules promise.

| module | file | what it covers |
|---|---|---|
| `Api` | api.dfy | the `Option` and `Result` types and the error cases the handlers report |
| `Seqs` | seqs.dfy | order-preserving filter, the subsequence relation, stable sort by a key, sort-then-limit |
| `Text` | text.dfy | ASCII lower-casing, substring occurrence, JavaScript `split` and `join` |
| `Upload` | upload.dfy | the multer `fileFilter` for audio uploads |
| `Language` | language.dfy | `convertLanguageCode` and the transcription handler's default language |
| `Transcription` | transcription.dfy | `processTranscription`: speaker labels from pauses between segments |
| `Directory` | directory.dfy | user records, `/api/signup`, `/api/tutors`, `/api/students` |
| `Sessions` | sessions.dfy | the in-memory session store, `/api/login`, `/api/logout`, `isAuthenticated` |
| `Connections` | connections.dfy | `/api/connect` and the symmetry of the tutor/student lists |
| `Messaging` | messages.dfy | `/api/message`, `/api/messages`, `/api/messages/:recipientId`, `/api/unread-messages` |
| `SignUpForm` | signup_form.dfy | the sign-up page's language checkboxes and terms guard |
| `TutorList` | tutor_list.dfy | the tutor list's client-side language filter |

State-changing handlers are functions from the old state to a pair of the
reply and the new state, for example `Signup(users, ...) : (Result<UserId>, Users)`.
Collections are sequences in storage order, MongoDB object ids are natural
numbers, and timestamps are integers (milliseconds). Everything the handlers
take from outside is a parameter: the bcrypt hash is an argument and bcrypt's
comparison is a function argument `matches`; the random session token, the
current time and the ISO 639-1 validity test are arguments too.

Behaviour worth knowing, as the code has it:

- The speaker flips only when a pause is strictly longer than 1.5 s; a pause
  of exactly 1.5 s keeps the speaker (`Transcription.ThresholdPauseKeepsSpeaker`).
  The comparison at talktome/backend/server.js:326 is `>`.
- No handler sets a message's `read` flag, so fetching a conversation leaves its
  unread count unchanged: unread counts only ever grow.
- The file-type pattern is not anchored: `song.mp3x` passes the extension
  check (`Upload.UnanchoredExtensionAccepted`), and so does `a.mp3.webmx`,
  whose extension `.webmx` contains `webm`.
- The conversation query sorts oldest first and then keeps fifty, so once a
  pair has exchanged more than fifty messages the newest ones are not returned
  (the last ensures of `Messaging.Conversation`), while the history query keeps
  the fifty newest.

## Model

| member | source | states |
|---|---|---|
| Seqs.Filter | talktome/frontend/src/components/TutorList.js:47-51 | the kept elements are exactly the elements of the input that pass the test, and there are no more of them than input elements |
| Seqs.FilterIsSubsequence | talktome/frontend/src/components/TutorList.js:47-51 | filtering deletes elements and never reorders the survivors |
| Seqs.FilterIdempotent | talktome/frontend/src/components/TutorList.js:47-51 | filtering twice with the same test is filtering once |
| Seqs.SortBy | talktome/backend/server.js:503 | the result is ordered by the key and is a permutation of the input |
| Seqs.SmallestN | talktome/backend/server.js:501-503 | sort-then-limit returns min(n, length) elements, ordered, drawn from the input (all of it when it is short enough), and every element left out has a key no smaller than every element kept |
| Text.Split | talktome/backend/server.js:256 | splitting always yields at least one piece and no piece contains the separator |
| Text.SplitJoin | talktome/backend/server.js:333 | splitting a newline-joined list of newline-free lines gives the lines back |
| Upload.Test | talktome/backend/server.js:31 | the pattern test succeeds exactly when one of the ten listed alternatives occurs somewhere in the string |
| Upload.ExtName | talktome/backend/server.js:33 | the extension is empty exactly when the last path component has no dot after its first character; otherwise it starts at that component's last dot and runs to the end |
| Upload.FileFilter | talktome/backend/server.js:29-42 | an upload is accepted exactly when both the lower-cased extension and the MIME type mention an allowed type; every refusal carries the fixed unsupported-format message |
| Upload.AcceptedWithLowerCaseExtension | talktome/backend/server.js:33-38 | a lower-case extension and a MIME type that both mention an allowed type are accepted |
| Upload.UnanchoredExtensionAccepted | talktome/backend/server.js:31-38 | a name made of a non-empty, slash-free stem, then `.mp3`, then lower-case text with no dot or slash is accepted with a MIME type that mentions an allowed type |
| Upload.ForeignMimeTypeRejected | talktome/backend/server.js:35-41 | a MIME type containing none of the letters f, m, o, w is refused whatever the file name |
| Upload.TextFileRejected | talktome/backend/server.js:37-41 | `notes.txt` sent as `text/plain` is refused with the unsupported-format message |
| Language.BaseCode | talktome/backend/server.js:256 | the base code is the lower-cased prefix of the code up to its first dash; it holds no dash and no upper-case letter |
| Language.ConvertLanguageCode | talktome/backend/server.js:254-265 | the result is the base code when the validator accepts it and English otherwise; it is always dash-free and lower case |
| Language.TranscriptionLanguage | talktome/backend/server.js:286 | a missing or empty language hint becomes English; any other hint is normalised |
| Language.BaseOfPlainCode | talktome/backend/server.js:256 | a dash-free lower-case code is its own base code |
| Language.ConvertIdempotent | talktome/backend/server.js:254-265 | normalising an already normalised code changes nothing, for any validator |
| Language.RegionalVariant | talktome/backend/server.js:255-260 | `en-US` normalises to `en` and `PT-br` to `pt` |
| Transcription.Line | talktome/backend/server.js:330 | each output line is one of the two speaker labels, a colon and a space, then the segment text |
| Transcription.ProcessTranscription | talktome/backend/server.js:319-334 | the single pass that flips a label string equals the reference transcript in which segment i is spoken by Speaker 1 or 2 according to the parity of long pauses up to i; no segments give the empty string |
| Transcription.FlippedLabel | talktome/backend/server.js:327 | the string flip between the two labels is the swap of the two speakers |
| Transcription.FirstSpeaker | talktome/backend/server.js:321 | the first segment is always Speaker 1 |
| Transcription.SpeakerChangesIffLongPause | talktome/backend/server.js:324-328 | neighbouring segments have different speakers exactly when the pause between them is longer than 1.5 s |
| Transcription.OneLinePerSegment | talktome/backend/server.js:330-333 | when no segment text holds a newline, the transcript splits into exactly one labelled line per segment |
| Transcription.ExampleTranscript | talktome/backend/server.js:319-334 | pauses of 0.2 s and 2 s give Speaker 1, Speaker 1, Speaker 2 |
| Transcription.ThresholdPauseKeepsSpeaker | talktome/backend/server.js:326 | a pause of exactly 1.5 s keeps the speaker |
| Directory.FindByUsername | talktome/backend/server.js:100 | finds nothing exactly when no record has the username; otherwise a stored record with that username |
| Directory.FindById | talktome/backend/server.js:427-432 | finds nothing exactly when no record has the id; otherwise the stored record with that id |
| Directory.Signup | talktome/backend/server.js:59-94 | refused with "user exists", changing nothing, exactly when the username or the email is taken; otherwise one record with a fresh id, the given fields and no connections is appended and every earlier record is kept |
| Directory.SignupKeepsIdsUnique | talktome/backend/server.js:76-85 | signing up keeps record ids unique |
| Directory.SignupKeepsNamesUnique | talktome/backend/server.js:66-85 | if no two users share a username or an email, none do after a signup |
| Directory.DuplicateSignupRefused | talktome/backend/server.js:66-70 | a taken username or email is refused whatever the other fields are |
| Directory.FindTutors | talktome/backend/server.js:180-200 | a user's profile is returned exactly when the role is tutor or both and, when a non-empty language is asked for, it is among the teaching languages; profiles keep storage order |
| Directory.FindStudents | talktome/backend/server.js:202-221 | the same for the roles student or both and the learning languages |
| Sessions.Login | talktome/backend/server.js:96-118 | an unknown username or a wrong password is refused, changing nothing; a known username with a matching password always succeeds; success maps the new token to the user's name, role and id, returns token and role, and keeps every other session |
| Sessions.Logout | talktome/backend/server.js:121-129 | an unknown token is refused, changing nothing; a known token is removed and nothing else is |
| Sessions.Authenticate | talktome/backend/server.js:133-161 | a missing or empty header, an unknown token and a session whose user is gone are refused in that order; otherwise the request runs as the session's user |
| Sessions.SignupLoginAuthenticate | talktome/backend/server.js:59-161 | signing up, logging in with the same password and presenting the token authenticates as the new user |
| Sessions.LoginThenLogout | talktome/backend/server.js:110-129 | logging out with the token a login just issued restores the sessions as they were |
| Sessions.LoggedOutTokenRefused | talktome/backend/server.js:121-144 | after a logout the token is refused as an invalid session |
| Connections.AddTutor | talktome/backend/server.js:447 | looking the student up afterwards finds the record found before with the tutor appended to its tutors; every other lookup finds what it found before; ids are kept, and a missing student changes nothing |
| Connections.AddStudent | talktome/backend/server.js:448 | looking the tutor up afterwards finds the record found before with the student appended to its students; every other lookup finds what it found before; ids are kept, and a missing tutor changes nothing |
| Connections.Parties | talktome/backend/server.js:425-437 | a tutor id makes the caller the student; otherwise a student id makes the caller the tutor; with neither there are no parties |
| Connections.Connect | talktome/backend/server.js:418-457 | missing ids, a missing user and an existing link are refused, changing nothing; it succeeds exactly when both users exist and neither lists the other, and then both lists gain the other party |
| Connections.Link | talktome/backend/server.js:446-448 | every record keeps all its fields except that exactly the student's tutors gain the tutor and exactly the tutor's students gain the student |
| Connections.ConnectPreservesWellLinked | talktome/backend/server.js:418-457 | every connect keeps the directory well linked: unique ids, links only to existing users, B among A's tutors exactly when A is among B's students, no list naming anyone twice |
| Connections.ConnectTwiceRefused | talktome/backend/server.js:441-448 | after a successful connect the tutor is among the student's tutors and repeating the request is refused as an existing connection |
| Connections.SignupPreservesWellLinked | talktome/backend/server.js:76-85 | signing up keeps the directory well linked |
| Messaging.Send | talktome/backend/server.js:477-492 | the log grows by one message from the caller to the recipient, with the content and time given, unread; earlier messages are kept |
| Messaging.History | talktome/backend/server.js:498-509 | at most fifty messages the user sent or received, all of them when there are at most fifty, newest first; every such message left out is no newer than every one returned |
| Messaging.Conversation | talktome/backend/server.js:511-526 | at most fifty messages between the two users in either direction, all of them when there are at most fifty, oldest first; every such message left out is no older than every one returned |
| Messaging.NewestHeadsHistory | talktome/backend/server.js:501-503 | a message strictly newer than every other message in the log comes first in the history of each of its parties |
| Messaging.SentMessageHeadsHistory | talktome/backend/server.js:482-503 | a message sent later than everything in the log comes first in the history of both sender and recipient |
| Messaging.ConversationSymmetric | talktome/backend/server.js:515-519 | the conversation is the same whichever of the two users asks |
| Messaging.OnlyPartner | talktome/backend/server.js:501-519 | when every message a user sent or received was exchanged with one other user, the history and the conversation select the same messages, whatever other users exchanged |
| Messaging.HistorySeesOnlyOwnMessages | talktome/backend/server.js:501-503 | a user's history depends only on the messages that user sent or received |
| Messaging.QueriesReturnAll | talktome/backend/server.js:498-526 | when a user's at most fifty messages were all exchanged with one other user, both queries return all of them |
| Messaging.HistoryReversesConversation | talktome/backend/server.js:498-520 | when a user's at most fifty messages were all exchanged with one other user at distinct times, the user's history is their conversation read backwards, whatever other users exchanged |
| Messaging.Bump | talktome/backend/server.js:552-555 | counting one more message from a sender adds one to its group or opens a group of one, keeps senders distinct, and raises the total by one |
| Messaging.Groups | talktome/backend/server.js:544-557 | one group per sender with unread messages for the user, each count the number of that sender's unread messages to the user and at least one, the counts adding up to the user's unread total |
| Messaging.Collect | talktome/backend/server.js:561-564 | copying distinct groups into the response object gives each sender its count and keeps earlier entries of other keys |
| Messaging.UnreadCounts | talktome/backend/server.js:539-572 | a sender is a key exactly when it has unread messages for the user, and its value is their number, at least one |
| Messaging.CountsMap | talktome/backend/server.js:561-564 | any map that agrees with the per-sender unread counts is the response |
| Messaging.SendCountsOnce | talktome/backend/server.js:482-564 | sending raises the recipient's count for the sender by one and leaves the recipient's other counts unchanged |
| Messaging.SendLeavesOthersCounts | talktome/backend/server.js:482-564 | sending changes no other user's unread counts |
| Messaging.UnreadExample | talktome/backend/server.js:544-564 | three unread messages from x and one from y give exactly `{x: 3, y: 1}` |
| SignUpForm.Remove | talktome/frontend/src/pages/SignUp.js:74 | the language is gone, every other language keeps its occurrences, and the order is kept |
| SignUpForm.Toggle | talktome/frontend/src/pages/SignUp.js:72-82 | the language is chosen afterwards exactly when it was not before, no other choice changes, and an unchosen language is appended at the end |
| SignUpForm.HandleLanguageChange | talktome/frontend/src/pages/SignUp.js:70-84 | the kind `learning` replaces the learning list by its toggle (the language removed everywhere if present, appended otherwise) and keeps the teaching list; any other kind does the same to the teaching list; nothing else in the form changes |
| SignUpForm.HandleSubmit | talktome/frontend/src/pages/SignUp.js:24-39 | a request is made exactly when the terms are accepted; without consent only the error message changes, with consent the form only becomes busy and the request carries the form's fields |
| SignUpForm.ToggleTwiceRestores | talktome/frontend/src/pages/SignUp.js:72-76 | ticking an unticked language twice restores the list exactly |
| SignUpForm.ToggleTwiceSameChoice | talktome/frontend/src/pages/SignUp.js:72-76 | ticking any language twice restores the set of chosen languages |
| SignUpForm.ToggleKeepsNoDuplicates | talktome/frontend/src/pages/SignUp.js:72-82 | the checkboxes never put a language in a list twice |
| SignUpForm.NoRequestWithoutConsent | talktome/frontend/src/pages/SignUp.js:26-29 | without consent no request is made, whatever languages are ticked first |
| TutorList.FilteredTutors | talktome/frontend/src/components/TutorList.js:44-56 | with no language chosen every tutor is shown; otherwise exactly the tutors whose teaching languages are present and include it, each as often as it was fetched, in the fetched order |
| TutorList.FilterTwice | talktome/frontend/src/components/TutorList.js:44-56 | applying the same language filter again changes nothing |
| TutorList.NarrowOnClient | talktome/frontend/src/components/TutorList.js:44-56 | narrowing the cards of all tutors by a language gives the cards of the tutors who teach it, in the same order |
| TutorList.ClientFilterMatchesServer | talktome/frontend/src/components/TutorList.js:14-56 | the list fetches every tutor and filters on the client; for any chosen language it shows exactly what the tutor query with that language returns, in the same order |

## Left out

- bcrypt hashing and comparison: a one-way cryptographic function; the hash is an argument of `Directory.Signup` and the comparison an argument of `Sessions.Login`.
- `Math.random` session ids: randomness; the token is an argument of `Sessions.Login` (a token already in use is overwritten, as the object assignment does).
- The ISO 639-1 validator: a library call; it is the `isValid` argument of `Language.ConvertLanguageCode`.
- The OpenAI transcription and feedback calls (`/api/transcribe` beyond the language and the post-processing, `/api/get-feedback`): network services.
- multer disk storage, file naming and `fs.unlinkSync`: file-system I/O; only the file filter is modelled.
- Socket.IO delivery in `/api/message` and presence: real-time I/O; delivery is best-effort and does not change the stored message.
- MongoDB persistence, `populate`, `save` and the aggregation engine: users and messages are in-memory sequences; the 500 replies for database failures and malformed object ids are not modelled.
- `/api/user`, `/api/protected`, `/api/connections`: plain reads with no rule beyond authentication.
- `/api/check-users` (talktome/backend/server.js:528): needs no session and lists every user without the password, emails included; a plain read.
- `PUT /api/user/update` and the `users` array it edits: dead code, since nothing ever adds to that array.
- `connectionExists`: an unused helper; `Connections.ConnectTwiceRefused` states the same reading of the graph through `Connections.Linked`.
- The session store is a JavaScript object, so a token such as `constructor` would hit inherited properties; tokens here are plain map keys.
- The `$group` stage's output order is unspecified by MongoDB; `Messaging.Groups` lists senders in order of first appearance, which only the response's key order could reveal, and an object has none that the client relies on.
- MongoDB returns the documents of an unsorted `find` (talktome/backend/server.js:190, :212) in no promised order; the model takes it to be storage order, which the tutor and student queries, `TutorList.NarrowOnClient` and `TutorList.ClientFilterMatchesServer` rely on. The schema declares no index on the queried fields (:376-385), so both queries scan the collection in storage order.
- MongoDB's order among messages with equal timestamps is unspecified; `Seqs.SortBy` keeps log order for ties, and `Messaging.HistoryReversesConversation` assumes the user's messages carry distinct timestamps for that reason.
- Connections.ConnectPreservesWellLinked: holds when the two record updates of a connect happen as one step and requests run one at a time. The handler saves the two documents separately (talktome/backend/server.js:450): if one save fails the other still persists and the graph is left asymmetric, and two interleaved connects can both pass the check at :442 and append the same link twice. Failed saves and concurrency are not modelled.
- Directory.Signup, Directory.FindTutors, Directory.FindStudents, Sessions.Login: the username, email and language arrive from Express's body and query parsers, which can also deliver objects or arrays that MongoDB reads as operators (`?language[$ne]=French` returns tutors who do not teach French; `{"username": {"$ne": null}}` refuses a signup whenever any user exists, whether or not the name is taken). The model types them as strings and does not model operator injection.
- Directory.SignupKeepsNamesUnique: holds only when signups run one at a time. The handler checks for a taken name (talktome/backend/server.js:66), then awaits the slow password hash (:73), then saves (:85), and the schema declares no unique index, so two concurrent signups with the same username or email can both be saved. Concurrency is not modelled.
- Messaging.Send: the recipient and the content are always present. A request body without `recipientId` or `content` is still saved with the field absent and answered as sent (talktome/backend/server.js:479-492); such a message shows up in the sender's history and in nobody's unread count. Missing body fields are not modelled.
- Upload.ExtName: models Node's `path.extname` for ordinary names; trailing slashes, Windows separators and names made only of dots are not modelled.
- Text.Lower: `toLowerCase` is modelled for ASCII letters only; other Unicode case mappings are not modelled.
- Transcription.ProcessTranscription: segment times are exact reals, not IEEE doubles, so rounding at the 1.5 s threshold is not modelled.
- The rest of the front end (dashboards, practice page, chat icon, login page, header, file upload page): rendering and HTTP glue.

=== FILE: api.dfy ===
/** Failure-carrying results shared by the REST handlers of the backend.
    Each handler either answers with a JSON body or with `{ error: ... }`; the
    model keeps the kind of error and drops the HTTP plumbing. */
module Api {

  datatype Option<+T> = None | Some(value: T)

  /** The error replies of the modelled handlers, one per distinct message. */
  datatype ApiError =
    | UserExists           // signup: username or email taken
    | UserNotFound         // login: unknown username; connect: missing record
    | InvalidPassword      // login: password does not match the stored hash
    | InvalidSession       // logout / isAuthenticated: token not in the session map
    | NoSessionId          // isAuthenticated: header missing or empty
    | SessionUserGone      // isAuthenticated: session's username no longer in the directory
    | MissingCounterpart   // connect: neither tutorId nor studentId given
    | ConnectionExists     // connect: the two users are already linked

  datatype Result<+T> = Ok(value: T) | Err(error: ApiError)
}

=== FILE: connections.dfy ===
/** The tutor/student connection graph: each user record lists the ids of its
    tutors and of its students, and `POST /api/connect`
    (talktome/backend/server.js:418-457) links two users by appending each to
    the other's list. The relation is meant to be symmetric: B is among A's
    tutors exactly when A is among B's students. */
module Connections {
  import opened Api
  import opened Seqs
  import opened Directory

  /** Rewriting in place the records with id `id`, keeping every id, changes
      what `findById` returns only for `id`, and there it finds the rewritten
      copy of the record it found before. */
  lemma {:induction false} FindAfterRewrite(users: Users, r: Users, id: UserId, x: UserId)
    requires |r| == |users|
    requires forall i :: 0 <= i < |users| ==> r[i].id == users[i].id
    requires forall i :: 0 <= i < |users| && users[i].id != id ==> r[i] == users[i]
    ensures x != id ==> FindById(r, x) == FindById(users, x)
    ensures FindById(r, x).Some? <==> FindById(users, x).Some?
    ensures FindById(users, x).Some? ==>
      exists i :: 0 <= i < |users| && FindById(users, x) == Some(users[i]) && FindById(r, x) == Some(r[i])
    decreases |users|
  {
    if |users| > 0 && users[0].id != x {
      FindAfterRewrite(users[1..], r[1..], id, x);
      if FindById(users, x).Some? {
        var i :| 0 <= i < |users[1..]| && FindById(users[1..], x) == Some(users[1..][i])
                 && FindById(r[1..], x) == Some(r[1..][i]);
        assert FindById(users, x) == Some(users[i + 1]) && FindById(r, x) == Some(r[i + 1]);
      }
    }
  }

  /** `student.tutors.push(tutor._id)`: the record `findById(studentId)` finds
      gains `tutorId` at the end of its tutors; every other lookup is as before. */
  function AddTutor(users: Users, studentId: UserId, tutorId: UserId): (r: Users)
    ensures |r| == |users|
    ensures forall i :: 0 <= i < |users| ==> r[i].id == users[i].id
    ensures !HasId(users, studentId) ==> r == users
    ensures HasId(users, studentId) ==>
      var student := FindById(users, studentId).value;
      FindById(r, studentId) == Some(student.(tutors := student.tutors + [tutorId]))
    ensures forall x :: x != studentId ==> FindById(r, x) == FindById(users, x)
  {
    var r := seq(|users|, i requires 0 <= i < |users| =>
      if users[i].id == studentId then users[i].(tutors := users[i].tutors + [tutorId]) else users[i]);
    FindAllAfterRewrite(users, r, studentId);
    r
  }

  /** `tutor.students.push(student._id)`: the record `findById(tutorId)` finds
      gains `studentId` at the end of its students; every other lookup is as
      before. */
  function AddStudent(users: Users, tutorId: UserId, studentId: UserId): (r: Users)
    ensures |r| == |users|
    ensures forall i :: 0 <= i < |users| ==> r[i].id == users[i].id
    ensures !HasId(users, tutorId) ==> r == users
    ensures HasId(users, tutorId) ==>
      var tutor := FindById(users, tutorId).value;
      FindById(r, tutorId) == Some(tutor.(students := tutor.students + [studentId]))
    ensures forall x :: x != tutorId ==> FindById(r, x) == FindById(users, x)
  {
    var r := seq(|users|, i requires 0 <= i < |users| =>
      if users[i].id == tutorId then users[i].(students := users[i].students + [studentId]) else users[i]);
    FindAllAfterRewrite(users, r, tutorId);
    r
  }

  /** `FindAfterRewrite` for every id at once. */
  lemma FindAllAfterRewrite(users: Users, r: Users, id: UserId)
    requires |r| == |users|
    requires forall i :: 0 <= i < |users| ==> r[i].id == users[i].id
    requires forall i :: 0 <= i < |users| && users[i].id != id ==> r[i] == users[i]
    ensures forall x :: x != id ==> FindById(r, x) == FindById(users, x)
    ensures FindById(users, id).Some? ==>
      exists i :: 0 <= i < |users| && FindById(users, id) == Some(users[i]) && FindById(r, id) == Some(r[i])
  {
    forall x | x != id
      ensures FindById(r, x) == FindById(users, x)
    {
      FindAfterRewrite(users, r, id, x);
    }
    FindAfterRewrite(users, r, id, id);
  }

  /** Which user plays which part: a `tutorId` in the body means the caller is
      the student; otherwise a `studentId` means the caller is the tutor. The
      result is `(tutor, student)`. */
  function Parties(currentUserId: UserId, tutorId: Option<UserId>, studentId: Option<UserId>): (r: Option<(UserId, UserId)>)
    ensures r.None? <==> tutorId.None? && studentId.None?
    ensures tutorId.Some? ==> r == Some((tutorId.value, currentUserId))
    ensures tutorId.None? && studentId.Some? ==> r == Some((currentUserId, studentId.value))
  {
    if tutorId.Some? then Some((tutorId.value, currentUserId))
    else if studentId.Some? then Some((currentUserId, studentId.value))
    else None
  }

  /** `POST /api/connect` for the caller `currentUserId`. Each error leaves the
      directory as it was. */
  function Connect(users: Users, currentUserId: UserId, tutorId: Option<UserId>, studentId: Option<UserId>): (r: (Result<()>, Users))
    ensures r.0.Err? ==> r.1 == users
    ensures tutorId.None? && studentId.None? ==> r.0 == Err(MissingCounterpart)
    ensures Parties(currentUserId, tutorId, studentId).Some? ==>
      var (t, s) := Parties(currentUserId, tutorId, studentId).value;
      && (!HasId(users, t) || !HasId(users, s) ==> r.0 == Err(UserNotFound))
      && (r.0.Ok? <==>
            && HasId(users, t) && HasId(users, s)
            && t !in FindById(users, s).value.tutors && s !in FindById(users, t).value.students)
      && (r.0.Ok? ==> r.1 == AddStudent(AddTutor(users, s, t), t, s))
      && ((HasId(users, t) && HasId(users, s)
             && (t in FindById(users, s).value.tutors || s in FindById(users, t).value.students))
            ==> r.0 == Err(ConnectionExists))
  {
    match Parties(currentUserId, tutorId, studentId)
    case None => (Err(MissingCounterpart), users)
    case Some((t, s)) =>
      match (FindById(users, t), FindById(users, s))
      case (Some(tutor), Some(student)) =>
        if tutor.id in student.tutors || student.id in tutor.students then (Err(ConnectionExists), users)
        else (Ok(()), AddStudent(AddTutor(users, student.id, tutor.id), tutor.id, student.id))
      case _ => (Err(UserNotFound), users)
  }

  /** B is among A's tutors exactly when A is among B's students. */
  ghost predicate Symmetric(users: Users)
  {
    forall i, j :: 0 <= i < |users| && 0 <= j < |users| ==>
      (users[j].id in users[i].tutors <==> users[i].id in users[j].students)
  }

  /** Every listed tutor or student is a user of the directory. */
  ghost predicate Closed(users: Users)
  {
    forall i, x :: 0 <= i < |users| && (x in users[i].tutors || x in users[i].students) ==> HasId(users, x)
  }

  ghost predicate NoDuplicateLinks(users: Users)
  {
    forall i :: 0 <= i < |users| ==> NoDuplicates(users[i].tutors) && NoDuplicates(users[i].students)
  }

  /** The connection-graph invariant. */
  ghost predicate WellLinked(users: Users)
  {
    UniqueIds(users) && Closed(users) && Symmetric(users) && NoDuplicateLinks(users)
  }

  /** With unique ids, the record `findById` returns is the one at the id's index. */
  lemma FoundAt(users: Users, i: nat)
    requires UniqueIds(users) && i < |users|
    ensures FindById(users, users[i].id) == Some(users[i])
  {
  }

  /** The two parties of a connect the handler accepts: both exist and neither
      already lists the other. */
  ghost predicate Linkable(users: Users, t: UserId, s: UserId)
  {
    HasId(users, t) && HasId(users, s)
    && t !in FindById(users, s).value.tutors && s !in FindById(users, t).value.students
  }

  /** The directory after linking tutor `t` and student `s`. */
  function Link(users: Users, t: UserId, s: UserId): (r: Users)
    ensures |r| == |users|
    ensures forall i :: 0 <= i < |users| ==>
      r[i] == users[i].(tutors := users[i].tutors + (if users[i].id == s then [t] else []),
                        students := users[i].students + (if users[i].id == t then [s] else []))
    ensures forall i :: 0 <= i < |users| ==> r[i].id == users[i].id
    ensures forall i :: 0 <= i < |users| ==>
      r[i].tutors == users[i].tutors + (if users[i].id == s then [t] else [])
    ensures forall i :: 0 <= i < |users| ==>
      r[i].students == users[i].students + (if users[i].id == t then [s] else [])
  {
    AddStudent(AddTutor(users, s, t), t, s)
  }

  lemma LinkKeepsIdsUnique(users: Users, t: UserId, s: UserId)
    requires UniqueIds(users)
    ensures UniqueIds(Link(users, t, s))
  {
  }

  lemma LinkKeepsClosed(users: Users, t: UserId, s: UserId)
    requires Closed(users) && HasId(users, t) && HasId(users, s)
    ensures Closed(Link(users, t, s))
  {
    var after := Link(users, t, s);
    forall i, x | 0 <= i < |after| && (x in after[i].tutors || x in after[i].students)
      ensures HasId(after, x)
    {
      if !(x in users[i].tutors || x in users[i].students) {
        assert x == t || x == s;
      }
      assert HasId(users, x);
      var k :| 0 <= k < |users| && users[k].id == x;
      assert after[k].id == x;
    }
  }

  lemma LinkKeepsSymmetric(users: Users, t: UserId, s: UserId)
    requires Symmetric(users)
    ensures Symmetric(Link(users, t, s))
  {
  }

  lemma LinkKeepsNoDuplicates(users: Users, t: UserId, s: UserId)
    requires UniqueIds(users) && NoDuplicateLinks(users) && Linkable(users, t, s)
    ensures NoDuplicateLinks(Link(users, t, s))
  {
    var after := Link(users, t, s);
    forall i | 0 <= i < |after|
      ensures NoDuplicates(after[i].tutors) && NoDuplicates(after[i].students)
    {
      if users[i].id == s {
        FoundAt(users, i);
        AppendFresh(users[i].tutors, t);
      }
      if users[i].id == t {
        FoundAt(users, i);
        AppendFresh(users[i].students, s);
      }
    }
  }

  /** Every connect keeps the graph well linked, when the two record updates
      are taken as one step and requests do not interleave: the handler saves
      the two documents separately, so a failed save or a concurrent connect
      falls outside this lemma. */
  lemma ConnectPreservesWellLinked(users: Users, currentUserId: UserId, tutorId: Option<UserId>, studentId: Option<UserId>)
    requires WellLinked(users)
    ensures WellLinked(Connect(users, currentUserId, tutorId, studentId).1)
  {
    var r := Connect(users, currentUserId, tutorId, studentId);
    if r.0.Ok? {
      var (t, s) := Parties(currentUserId, tutorId, studentId).value;
      assert Linkable(users, t, s);
      assert r.1 == Link(users, t, s);
      LinkKeepsIdsUnique(users, t, s);
      LinkKeepsClosed(users, t, s);
      LinkKeepsSymmetric(users, t, s);
      LinkKeepsNoDuplicates(users, t, s);
    }
  }

  /** `connectionExists`-style reading of the graph: `t` tutors `s`. */
  ghost predicate Linked(users: Users, t: UserId, s: UserId)
  {
    exists i :: 0 <= i < |users| && users[i].id == s && t in users[i].tutors
  }

  /** A successful connect links the two parties, and asking again is refused
      as an existing connection. */
  lemma ConnectTwiceRefused(users: Users, currentUserId: UserId, tutorId: Option<UserId>, studentId: Option<UserId>)
    requires UniqueIds(users)
    requires Connect(users, currentUserId, tutorId, studentId).0.Ok?
    ensures var after := Connect(users, currentUserId, tutorId, studentId).1;
      var (t, s) := Parties(currentUserId, tutorId, studentId).value;
      && Linked(after, t, s)
      && Connect(after, currentUserId, tutorId, studentId) == (Err(ConnectionExists), after)
  {
    var (t, s) := Parties(currentUserId, tutorId, studentId).value;
    assert Connect(users, currentUserId, tutorId, studentId).1 == Link(users, t, s);
    LinkRecorded(users, t, s);
  }

  /** After linking, both parties still exist and the student's record lists
      the tutor. */
  lemma LinkRecorded(users: Users, t: UserId, s: UserId)
    requires UniqueIds(users) && HasId(users, t) && HasId(users, s)
    ensures var after := Link(users, t, s);
      && HasId(after, t) && HasId(after, s)
      && t in FindById(after, s).value.tutors
      && Linked(after, t, s)
  {
    var after := Link(users, t, s);
    var k :| 0 <= k < |users| && users[k].id == s;
    var m :| 0 <= m < |users| && users[m].id == t;
    assert after[k].id == s && t in after[k].tutors;
    assert after[m].id == t;
    LinkKeepsIdsUnique(users, t, s);
    FoundAt(after, k);
  }

  /** In a closed graph, an id no record has is listed nowhere. */
  lemma Unlisted(users: Users, x: UserId)
    requires Closed(users)
    requires forall i :: 0 <= i < |users| ==> users[i].id != x
    ensures forall i :: 0 <= i < |users| ==> x !in users[i].tutors && x !in users[i].students
  {
    forall i | 0 <= i < |users|
      ensures x !in users[i].tutors && x !in users[i].students
    {
      assert x in users[i].tutors || x in users[i].students ==> HasId(users, x);
    }
  }

  /** A new user has no links, so signing up keeps the graph well linked. */
  lemma SignupPreservesWellLinked(users: Users, username: string, email: string, passwordHash: string, role: string,
                                  learningLanguages: seq<string>, teachingLanguages: seq<string>)
    requires WellLinked(users)
    ensures WellLinked(Signup(users, username, email, passwordHash, role, learningLanguages, teachingLanguages).1)
  {
    var (created, after) := Signup(users, username, email, passwordHash, role, learningLanguages, teachingLanguages);
    if created.Ok? {
      var n := |users|;
      assert forall i :: 0 <= i < n ==> after[i] == users[i];
      forall i, x | 0 <= i < |after| && (x in after[i].tutors || x in after[i].students)
        ensures HasId(after, x)
      {
        assert i < n && after[i] == users[i];
        assert HasId(users, x);
        var k :| 0 <= k < n && users[k].id == x;
        assert after[k].id == x;
      }
      forall i, j | 0 <= i < |after| && 0 <= j < |after|
        ensures after[j].id in after[i].tutors <==> after[i].id in after[j].students
      {
        if j == n && i < n {
          Unlisted(users, after[j].id);
        }
        if i == n && j < n {
          Unlisted(users, after[i].id);
        }
      }
    }
  }
}

=== FILE: directory.dfy ===
/** The user directory: the persisted `User` records
    (talktome/backend/server.js:376-385), signup (:59-94) and the tutor and
    student queries (:180-221). The collection is a sequence in storage order;
    record ids stand for MongoDB object ids. */
module Directory {
  import opened Api
  import opened Seqs

  type UserId = nat

  datatype User = User(
    id: UserId,
    username: string,
    email: string,
    passwordHash: string,
    role: string,
    learningLanguages: seq<string>,
    teachingLanguages: seq<string>,
    tutors: seq<UserId>,
    students: seq<UserId>)

  /** A user as the queries return it: everything but the password hash
      (`select('-password')`). */
  datatype Profile = Profile(
    id: UserId,
    username: string,
    email: string,
    role: string,
    learningLanguages: seq<string>,
    teachingLanguages: seq<string>,
    tutors: seq<UserId>,
    students: seq<UserId>)

  type Users = seq<User>

  function Public(u: User): Profile
  {
    Profile(u.id, u.username, u.email, u.role, u.learningLanguages, u.teachingLanguages, u.tutors, u.students)
  }

  function Profiles(users: Users): (r: seq<Profile>)
    ensures |r| == |users|
    ensures forall i :: 0 <= i < |users| ==> r[i] == Public(users[i])
  {
    seq(|users|, i requires 0 <= i < |users| => Public(users[i]))
  }

  /** No two records share an id (MongoDB's `_id` is a primary key). */
  ghost predicate UniqueIds(users: Users)
  {
    forall i, j :: 0 <= i < |users| && 0 <= j < |users| && users[i].id == users[j].id ==> i == j
  }

  ghost predicate HasId(users: Users, id: UserId)
  {
    exists i :: 0 <= i < |users| && users[i].id == id
  }

  /** `findOne({ username })`: the first record in storage order with that
      username. */
  function FindByUsername(users: Users, username: string): (r: Option<User>)
    ensures r.None? <==> forall i :: 0 <= i < |users| ==> users[i].username != username
    ensures r.Some? ==> r.value in users && r.value.username == username
  {
    if |users| == 0 then None
    else if users[0].username == username then Some(users[0])
    else FindByUsername(users[1..], username)
  }

  /** `findById(id)`. */
  function FindById(users: Users, id: UserId): (r: Option<User>)
    ensures r.None? <==> !HasId(users, id)
    ensures r.Some? ==> exists i :: 0 <= i < |users| && users[i] == r.value && r.value.id == id
  {
    if |users| == 0 then None
    else if users[0].id == id then Some(users[0])
    else
      var r := FindById(users[1..], id);
      assert HasId(users, id) ==> HasId(users[1..], id) by {
        if HasId(users, id) {
          var i :| 0 <= i < |users| && users[i].id == id;
          assert users[1..][i - 1] == users[i];
        }
      }
      assert r.Some? ==> exists i :: 0 <= i < |users| && users[i] == r.value by {
        if r.Some? {
          var i :| 0 <= i < |users[1..]| && users[1..][i] == r.value;
          assert users[i + 1] == r.value;
        }
      }
      r
  }

  /** An id larger than every id in use; stands for a freshly generated object id. */
  function FreshId(users: Users): (id: UserId)
    ensures forall i :: 0 <= i < |users| ==> users[i].id < id
  {
    if |users| == 0 then 0
    else
      var rest := FreshId(users[1..]);
      assert forall i :: 1 <= i < |users| ==> users[i] == users[1..][i - 1];
      if users[0].id < rest then rest else users[0].id + 1
  }

  /** Some record already uses the username or the email
      (`findOne({ $or: [{ username }, { email }] })`). */
  predicate Taken(users: Users, username: string, email: string)
  {
    exists i :: 0 <= i < |users| && (users[i].username == username || users[i].email == email)
  }

  /** `POST /api/signup`. The password arrives already hashed: bcrypt is outside
      the model. On success the new record, with no connections, is appended and
      its id returned. */
  function Signup(users: Users, username: string, email: string, passwordHash: string, role: string,
                  learningLanguages: seq<string>, teachingLanguages: seq<string>): (r: (Result<UserId>, Users))
    ensures r.0.Err? <==> Taken(users, username, email)
    ensures r.0.Err? ==> r.0.error == UserExists && r.1 == users
    ensures r.0.Ok? ==>
      && |r.1| == |users| + 1
      && r.1[..|users|] == users
      && (forall i :: 0 <= i < |users| ==> users[i].id != r.0.value)
      && r.1[|users|] == User(r.0.value, username, email, passwordHash, role, learningLanguages, teachingLanguages, [], [])
  {
    if Taken(users, username, email) then (Err(UserExists), users)
    else
      var id := FreshId(users);
      (Ok(id), users + [User(id, username, email, passwordHash, role, learningLanguages, teachingLanguages, [], [])])
  }

  /** A signup keeps record ids unique. */
  lemma SignupKeepsIdsUnique(users: Users, username: string, email: string, passwordHash: string, role: string,
                             learningLanguages: seq<string>, teachingLanguages: seq<string>)
    requires UniqueIds(users)
    ensures UniqueIds(Signup(users, username, email, passwordHash, role, learningLanguages, teachingLanguages).1)
  {
  }

  /** No two records share a username or an email: signup refuses a taken
      one. */
  ghost predicate UniqueNames(users: Users)
  {
    forall i, j :: 0 <= i < j < |users| ==>
      users[i].username != users[j].username && users[i].email != users[j].email
  }

  /** A signup keeps usernames and emails unique. */
  lemma SignupKeepsNamesUnique(users: Users, username: string, email: string, passwordHash: string, role: string,
                               learningLanguages: seq<string>, teachingLanguages: seq<string>)
    requires UniqueNames(users)
    ensures UniqueNames(Signup(users, username, email, passwordHash, role, learningLanguages, teachingLanguages).1)
  {
  }

  /** A duplicate username or email is refused regardless of every other field. */
  lemma DuplicateSignupRefused(users: Users, i: nat, username: string, email: string, passwordHash: string,
                               role: string, learningLanguages: seq<string>, teachingLanguages: seq<string>)
    requires i < |users|
    requires users[i].username == username || users[i].email == email
    ensures Signup(users, username, email, passwordHash, role, learningLanguages, teachingLanguages) == (Err(UserExists), users)
  {
  }

  /** Role filter of `/api/tutors`: `$or: [{ role: 'tutor' }, { role: 'both' }]`. */
  predicate IsTutor(p: Profile)
  {
    p.role == "tutor" || p.role == "both"
  }

  /** Role filter of `/api/students`. */
  predicate IsStudent(p: Profile)
  {
    p.role == "student" || p.role == "both"
  }

  /** The language query parameter narrows the search only when it is present
      and non-empty (`if (language)`). */
  predicate Narrows(language: Option<string>)
  {
    language.Some? && language.value != ""
  }

  predicate TutorMatches(p: Profile, language: Option<string>)
  {
    IsTutor(p) && (Narrows(language) ==> language.value in p.teachingLanguages)
  }

  /** The query filter of `/api/tutors` as a test on profiles. */
  function TutorQuery(language: Option<string>): Profile -> bool
  {
    (p: Profile) => TutorMatches(p, language)
  }

  predicate StudentMatches(p: Profile, language: Option<string>)
  {
    IsStudent(p) && (Narrows(language) ==> language.value in p.learningLanguages)
  }

  /** `GET /api/tutors`: the profiles, in storage order, of the users whose role
      is tutor or both and, when a language is given, who teach it. */
  function FindTutors(users: Users, language: Option<string>): (r: seq<Profile>)
    ensures forall i :: 0 <= i < |users| ==>
      (Public(users[i]) in r <==> IsTutor(Public(users[i])) && (Narrows(language) ==> language.value in users[i].teachingLanguages))
    ensures forall p :: p in r ==> p in Profiles(users) && IsTutor(p)
    ensures forall p :: p in r && Narrows(language) ==> language.value in p.teachingLanguages
    ensures IsSubsequence(r, Profiles(users))
  {
    var r := Filter(Profiles(users), TutorQuery(language));
    FilterIsSubsequence(Profiles(users), TutorQuery(language));
    r
  }

  /** `GET /api/students`: the same query over the student roles and the
      learning languages. */
  function FindStudents(users: Users, language: Option<string>): (r: seq<Profile>)
    ensures forall i :: 0 <= i < |users| ==>
      (Public(users[i]) in r <==> IsStudent(Public(users[i])) && (Narrows(language) ==> language.value in users[i].learningLanguages))
    ensures forall p :: p in r ==> p in Profiles(users) && IsStudent(p)
    ensures forall p :: p in r && Narrows(language) ==> language.value in p.learningLanguages
    ensures IsSubsequence(r, Profiles(users))
  {
    var r := Filter(Profiles(users), (p: Profile) => StudentMatches(p, language));
    FilterIsSubsequence(Profiles(users), (p: Profile) => StudentMatches(p, language));
    r
  }
}

=== FILE: language.dfy ===
/** Normalisation of the transcription language hint
    (talktome/backend/server.js:254-265, called at :286). The ISO 639-1
    validity test comes from a library and is a parameter here. */
module Language {
  import opened Api
  import opened Text

  const DefaultLanguage: string := "en"

  /** `code.split('-')[0].toLowerCase()`: the lower-cased part before the first dash. */
  function BaseCode(code: string): (r: string)
    ensures |r| <= |code|
    ensures '-' !in r
    ensures forall i :: 0 <= i < |r| ==> !IsUpper(r[i])
    ensures r == Lower(code[..|r|])
    ensures |r| < |code| ==> code[|r|] == '-'
  {
    var head := Split(code, '-')[0];
    SplitHead(code, '-');
    Lower(head)
  }

  /** `convertLanguageCode`: the base code when the validator accepts it,
      English otherwise. */
  function ConvertLanguageCode(code: string, isValid: string -> bool): (r: string)
    ensures r == BaseCode(code) || r == DefaultLanguage
    ensures isValid(BaseCode(code)) ==> r == BaseCode(code)
    ensures !isValid(BaseCode(code)) ==> r == DefaultLanguage
    ensures r != BaseCode(code) ==> r == DefaultLanguage && !isValid(BaseCode(code))
    ensures '-' !in r && forall i :: 0 <= i < |r| ==> !IsUpper(r[i])
  {
    var base := BaseCode(code);
    if isValid(base) then base else DefaultLanguage
  }

  /** The hint as the transcription handler passes it on: a missing or empty
      `language` field (`req.body.language || 'en'`) becomes English before
      normalisation. */
  function TranscriptionLanguage(hint: Option<string>, isValid: string -> bool): (r: string)
    ensures (hint.None? || hint.value == "") ==> r == DefaultLanguage
    ensures hint.Some? && hint.value != "" ==> r == ConvertLanguageCode(hint.value, isValid)
  {
    var code := if hint.Some? && hint.value != "" then hint.value else DefaultLanguage;
    assert BaseCode(DefaultLanguage) == DefaultLanguage by {
      BaseOfPlainCode(DefaultLanguage);
    }
    ConvertLanguageCode(code, isValid)
  }

  /** A code that is already lower case and dash-free is its own base code. */
  lemma BaseOfPlainCode(code: string)
    requires '-' !in code
    requires forall i :: 0 <= i < |code| ==> !IsUpper(code[i])
    ensures BaseCode(code) == code
  {
    LowerOfLower(code);
  }

  /** Normalising twice gives the same answer as normalising once, whatever the
      validator says. */
  lemma ConvertIdempotent(code: string, isValid: string -> bool)
    ensures ConvertLanguageCode(ConvertLanguageCode(code, isValid), isValid) == ConvertLanguageCode(code, isValid)
  {
    var r := ConvertLanguageCode(code, isValid);
    BaseOfPlainCode(r);
  }

  /** Regional variants normalise to their base language. */
  lemma RegionalVariant()
    ensures ConvertLanguageCode("en-US", (c: string) => c == "en") == "en"
    ensures ConvertLanguageCode("PT-br", (c: string) => c == "pt") == "pt"
  {
    assert Split("en-US", '-')[0] == "en";
    assert Split("PT-br", '-')[0] == "PT";
    assert Lower("PT") == "pt";
  }
}

=== FILE: messages.dfy ===
/** The message store and its queries (talktome/backend/server.js:368-374 and
    :477-572): sending appends an unread message, the history and conversation
    queries filter, sort and cut the log at fifty, and the unread counts group
    the caller's unread messages by sender. The log is a sequence in insertion
    order; a timestamp is a whole number of milliseconds. */
module Messaging {
  import opened Seqs
  import opened Directory

  datatype Message = Message(sender: UserId, recipient: UserId, content: string, read: bool, timestamp: int)

  type Log = seq<Message>

  /** Both queries stop after this many messages (`limit(50)`). */
  const PageSize: nat := 50

  /** `POST /api/message`: the caller sends `content` to `recipient` at time
      `now` (the schema default `Date.now`); the record starts unread. The live
      notification is outside the model. */
  function Send(log: Log, sender: UserId, recipient: UserId, content: string, now: int): (r: Log)
    ensures |r| == |log| + 1 && r[..|log|] == log
    ensures var m := r[|log|];
      m.sender == sender && m.recipient == recipient && m.content == content && !m.read && m.timestamp == now
  {
    log + [Message(sender, recipient, content, false, now)]
  }

  predicate Involves(m: Message, user: UserId)
  {
    m.sender == user || m.recipient == user
  }

  /** The message travels between `u` and `v`, in either direction. */
  predicate Between(m: Message, u: UserId, v: UserId)
  {
    (m.sender == u && m.recipient == v) || (m.sender == v && m.recipient == u)
  }

  function Involving(user: UserId): Message -> bool
  {
    (m: Message) => Involves(m, user)
  }

  function Exchanged(u: UserId, v: UserId): Message -> bool
  {
    (m: Message) => Between(m, u, v)
  }

  /** Sort key for `sort({ timestamp: -1 })`. */
  function NewestFirst(m: Message): int
  {
    -m.timestamp
  }

  /** Sort key for `sort({ timestamp: 1 })`. */
  function OldestFirst(m: Message): int
  {
    m.timestamp
  }

  /** `GET /api/messages`: the fifty newest messages the caller sent or
      received, newest first. */
  function History(log: Log, user: UserId): (r: seq<Message>)
    ensures |r| == Min(PageSize, |Filter(log, Involving(user))|)
    ensures forall m :: m in r ==> m in log && Involves(m, user)
    ensures multiset(r) <= multiset(Filter(log, Involving(user)))
    ensures |Filter(log, Involving(user))| <= PageSize ==> multiset(r) == multiset(Filter(log, Involving(user)))
    ensures forall i, j :: 0 <= i < j < |r| ==> r[i].timestamp >= r[j].timestamp
    ensures forall m, k :: m in log && Involves(m, user) && m !in r && k in r ==> m.timestamp <= k.timestamp
  {
    var candidates := Filter(log, Involving(user));
    var r := SmallestN(candidates, NewestFirst, PageSize);
    InKept(candidates, r);
    forall m, k | m in log && Involves(m, user) && m !in r && k in r
      ensures m.timestamp <= k.timestamp
    {
      assert Involving(user)(m);
      assert m in candidates;
      assert NewestFirst(k) <= NewestFirst(m);
    }
    r
  }

  /** `GET /api/messages/:recipientId`: the fifty oldest messages exchanged
      between the caller and the other party, oldest first. */
  function Conversation(log: Log, user: UserId, other: UserId): (r: seq<Message>)
    ensures |r| == Min(PageSize, |Filter(log, Exchanged(user, other))|)
    ensures forall m :: m in r ==> m in log && Between(m, user, other)
    ensures multiset(r) <= multiset(Filter(log, Exchanged(user, other)))
    ensures |Filter(log, Exchanged(user, other))| <= PageSize ==> multiset(r) == multiset(Filter(log, Exchanged(user, other)))
    ensures forall i, j :: 0 <= i < j < |r| ==> r[i].timestamp <= r[j].timestamp
    ensures forall m, k :: m in log && Between(m, user, other) && m !in r && k in r ==> k.timestamp <= m.timestamp
  {
    var candidates := Filter(log, Exchanged(user, other));
    var r := SmallestN(candidates, OldestFirst, PageSize);
    InKept(candidates, r);
    forall m, k | m in log && Between(m, user, other) && m !in r && k in r
      ensures k.timestamp <= m.timestamp
    {
      assert Exchanged(user, other)(m);
      assert m in candidates;
      assert OldestFirst(k) <= OldestFirst(m);
    }
    r
  }

  /** What a sub-multiset keeps was in the original. */
  lemma InKept(s: seq<Message>, r: seq<Message>)
    requires multiset(r) <= multiset(s)
    ensures forall m :: m in r ==> m in s
  {
    forall m | m in r
      ensures m in s
    {
      assert m in multiset(r);
    }
  }

  /** A message strictly newer than every other one in the log heads the
      history of each of its parties. */
  lemma NewestHeadsHistory(log: Log, user: UserId, newest: Message)
    requires newest in log && Involves(newest, user)
    requires forall i :: 0 <= i < |log| && log[i] != newest ==> log[i].timestamp < newest.timestamp
    ensures |History(log, user)| > 0 && History(log, user)[0] == newest
  {
    assert Involving(user)(newest);
    assert newest in Filter(log, Involving(user));
    var r := History(log, user);
    assert |r| > 0;
    if newest in r {
      var k :| 0 <= k < |r| && r[k] == newest;
    }
    assert r[0].timestamp >= newest.timestamp;
    assert r[0] in log;
  }

  /** A message sent after everything in the log heads both parties' histories. */
  lemma SentMessageHeadsHistory(log: Log, sender: UserId, recipient: UserId, content: string, now: int, user: UserId)
    requires forall i :: 0 <= i < |log| ==> log[i].timestamp < now
    requires user == sender || user == recipient
    ensures |History(Send(log, sender, recipient, content, now), user)| > 0
    ensures History(Send(log, sender, recipient, content, now), user)[0] == Message(sender, recipient, content, false, now)
  {
    var after := Send(log, sender, recipient, content, now);
    var sent := Message(sender, recipient, content, false, now);
    assert after == log + [sent];
    assert forall i :: 0 <= i < |after| && after[i] != sent ==> after[i].timestamp < now by {
      assert forall i :: 0 <= i < |log| ==> after[i] == log[i];
    }
    NewestHeadsHistory(after, user, sent);
  }

  /** A conversation query is the same whichever party asks. */
  lemma ConversationSymmetric(log: Log, u: UserId, v: UserId)
    ensures Conversation(log, u, v) == Conversation(log, v, u)
  {
    FilterAgree(log, Exchanged(u, v), Exchanged(v, u));
  }

  function Reverse<T>(s: seq<T>): (r: seq<T>)
    ensures |r| == |s|
    ensures forall i :: 0 <= i < |s| ==> r[i] == s[|s| - 1 - i]
  {
    seq(|s|, i requires 0 <= i < |s| => s[|s| - 1 - i])
  }

  /** Reading a sequence backwards keeps its elements. */
  lemma {:induction false} ReverseMultiset<T>(s: seq<T>)
    ensures multiset(Reverse(s)) == multiset(s)
    decreases |s|
  {
    if |s| > 0 {
      assert Reverse(s) == Reverse(s[1..]) + [s[0]];
      assert s == [s[0]] + s[1..];
      ReverseMultiset(s[1..]);
    }
  }

  /** No two distinct messages among `a` carry the same timestamp. */
  ghost predicate DistinctTimes(a: seq<Message>)
  {
    forall x, y :: x in a && y in a && x.timestamp == y.timestamp ==> x == y
  }

  ghost predicate NewestFirstOrder(a: seq<Message>)
  {
    forall i, j :: 0 <= i < j < |a| ==> a[i].timestamp >= a[j].timestamp
  }

  lemma HeadIsNewest(a: seq<Message>, x: Message)
    requires NewestFirstOrder(a) && x in a
    ensures a[0].timestamp >= x.timestamp
  {
    var k :| 0 <= k < |a| && a[k] == x;
    if k > 0 {
      assert a[0].timestamp >= a[k].timestamp;
    }
  }

  lemma TailFacts(a: seq<Message>)
    requires |a| > 0 && NewestFirstOrder(a) && DistinctTimes(a)
    ensures NewestFirstOrder(a[1..]) && DistinctTimes(a[1..])
  {
    assert a == [a[0]] + a[1..];
    forall i, j | 0 <= i < j < |a[1..]|
      ensures a[1..][i].timestamp >= a[1..][j].timestamp
    {
      assert a[1..][i] == a[i + 1] && a[1..][j] == a[j + 1];
    }
    assert forall x :: x in a[1..] ==> x in a;
  }

  lemma SameHeadSameTails(a: seq<Message>, b: seq<Message>)
    requires |a| > 0 && |b| > 0 && a[0] == b[0]
    requires multiset(a) == multiset(b)
    ensures multiset(a[1..]) == multiset(b[1..])
  {
    assert a == [a[0]] + a[1..];
    assert b == [b[0]] + b[1..];
    assert multiset(a) == multiset{a[0]} + multiset(a[1..]);
    assert multiset(b) == multiset{b[0]} + multiset(b[1..]);
    forall x
      ensures multiset(a[1..])[x] == multiset(b[1..])[x]
    {
      assert multiset(a)[x] == multiset(b)[x];
    }
  }

  lemma SameElementsDistinctTimes(a: seq<Message>, b: seq<Message>)
    requires multiset(a) == multiset(b) && DistinctTimes(a)
    ensures DistinctTimes(b)
  {
    assert forall x :: x in b ==> x in multiset(a);
  }

  /** Two newest-first orderings of the same messages agree when no two of
      them share a timestamp. */
  lemma {:induction false} NewestFirstUnique(a: seq<Message>, b: seq<Message>)
    requires multiset(a) == multiset(b)
    requires NewestFirstOrder(a) && NewestFirstOrder(b)
    requires DistinctTimes(a)
    ensures a == b
    decreases |a|
  {
    assert |a| == |multiset(a)| == |multiset(b)| == |b|;
    if |a| > 0 {
      assert b[0] in multiset(a) && a[0] in multiset(b);
      HeadIsNewest(a, b[0]);
      HeadIsNewest(b, a[0]);
      assert a[0] == b[0];
      SameElementsDistinctTimes(a, b);
      TailFacts(a);
      TailFacts(b);
      SameHeadSameTails(a, b);
      NewestFirstUnique(a[1..], b[1..]);
      assert a == [a[0]] + a[1..] && b == [b[0]] + b[1..];
    }
  }

  /** The oldest-first conversation read backwards is in newest-first order. */
  lemma ReversedConversationOrder(c: seq<Message>)
    requires forall i, j :: 0 <= i < j < |c| ==> c[i].timestamp <= c[j].timestamp
    ensures NewestFirstOrder(Reverse(c))
  {
    var rc := Reverse(c);
    forall i, j | 0 <= i < j < |rc|
      ensures rc[i].timestamp >= rc[j].timestamp
    {
      assert rc[i] == c[|c| - 1 - i] && rc[j] == c[|c| - 1 - j];
    }
  }

  /** When every message `u` sent or received was exchanged with `v`, the
      history query and the conversation query select the same messages;
      messages between other users play no part. */
  lemma {:induction false} OnlyPartner(log: Log, u: UserId, v: UserId)
    requires forall i :: 0 <= i < |log| && Involves(log[i], u) ==> Between(log[i], u, v)
    ensures Filter(log, Involving(u)) == Filter(log, Exchanged(u, v))
  {
    forall i | 0 <= i < |log|
      ensures Involving(u)(log[i]) == Exchanged(u, v)(log[i])
    {
    }
    FilterAgree(log, Involving(u), Exchanged(u, v));
  }

  /** The history of `user` depends only on the messages `user` sent or
      received. */
  lemma HistorySeesOnlyOwnMessages(log: Log, user: UserId)
    ensures History(Filter(log, Involving(user)), user) == History(log, user)
  {
    FilterIdempotent(log, Involving(user));
  }

  /** When every message of `u`'s was exchanged with `v` and there are at most
      fifty of them, both queries return all of them. */
  lemma QueriesReturnAll(log: Log, u: UserId, v: UserId)
    requires forall i :: 0 <= i < |log| && Involves(log[i], u) ==> Between(log[i], u, v)
    requires |Filter(log, Involving(u))| <= PageSize
    ensures multiset(History(log, u)) == multiset(Filter(log, Exchanged(u, v)))
    ensures multiset(Conversation(log, u, v)) == multiset(Filter(log, Exchanged(u, v)))
  {
    OnlyPartner(log, u, v);
  }

  lemma LogDistinctTimes(log: Log)
    requires forall i, j :: 0 <= i < j < |log| ==> log[i].timestamp != log[j].timestamp
    ensures DistinctTimes(log)
  {
    forall x, y | x in log && y in log && x.timestamp == y.timestamp
      ensures x == y
    {
      var i :| 0 <= i < |log| && log[i] == x;
      var j :| 0 <= j < |log| && log[j] == y;
      assert !(i < j) && !(j < i);
    }
  }

  lemma FewerElementsDistinctTimes(a: seq<Message>, b: seq<Message>)
    requires multiset(a) <= multiset(b) && DistinctTimes(b)
    ensures DistinctTimes(a)
  {
    assert forall x :: x in a ==> x in multiset(b);
  }

  /** When every message of `u`'s was exchanged with `v`, there are at most
      fifty of them and no two carry the same timestamp, the history of `u` is
      the conversation with `v` read backwards. Messages between other users
      may be anywhere in the log. */
  lemma HistoryReversesConversation(log: Log, u: UserId, v: UserId)
    requires forall i :: 0 <= i < |log| && Involves(log[i], u) ==> Between(log[i], u, v)
    requires |Filter(log, Involving(u))| <= PageSize
    requires var own := Filter(log, Involving(u));
      forall i, j :: 0 <= i < j < |own| ==> own[i].timestamp != own[j].timestamp
    ensures History(log, u) == Reverse(Conversation(log, u, v))
  {
    var h := History(log, u);
    var c := Conversation(log, u, v);
    var rc := Reverse(c);
    var own := Filter(log, Exchanged(u, v));
    OnlyPartner(log, u, v);
    QueriesReturnAll(log, u, v);
    ReverseMultiset(c);
    ReversedConversationOrder(c);
    assert NewestFirstOrder(h);
    LogDistinctTimes(own);
    FewerElementsDistinctTimes(rc, own);
    NewestFirstUnique(rc, h);
  }

  /** The messages waiting for `user` that `sender` wrote
      (`$match: { recipient, read: false }` narrowed to one `_id: '$sender'` group). */
  function UnreadFromTest(user: UserId, sender: UserId): Message -> bool
  {
    (m: Message) => m.recipient == user && !m.read && m.sender == sender
  }

  function UnreadTest(user: UserId): Message -> bool
  {
    (m: Message) => m.recipient == user && !m.read
  }

  /** Reference count: unread messages from `sender` addressed to `user`. */
  function UnreadFrom(log: Log, user: UserId, sender: UserId): nat
  {
    |Filter(log, UnreadFromTest(user, sender))|
  }

  /** Reference count: all unread messages addressed to `user`. */
  function UnreadTotal(log: Log, user: UserId): nat
  {
    |Filter(log, UnreadTest(user))|
  }

  /** Appending one element adds one to a filtered count exactly when it passes. */
  lemma CountSnoc(log: Log, m: Message, p: Message -> bool)
    ensures |Filter(log + [m], p)| == |Filter(log, p)| + (if p(m) then 1 else 0)
  {
    FilterAppend(log, [m], p);
  }

  /** One `$group` output document. */
  datatype Group = Group(sender: UserId, count: nat)

  function Sum(groups: seq<Group>): nat
  {
    if |groups| == 0 then 0 else groups[0].count + Sum(groups[1..])
  }

  predicate HasSender(groups: seq<Group>, x: UserId)
  {
    exists i :: 0 <= i < |groups| && groups[i].sender == x
  }

  /** The count of the first group for `x`, or 0. */
  function CountOf(groups: seq<Group>, x: UserId): nat
  {
    if |groups| == 0 then 0
    else if groups[0].sender == x then groups[0].count
    else CountOf(groups[1..], x)
  }

  ghost predicate DistinctSenders(groups: seq<Group>)
  {
    forall i, j :: 0 <= i < j < |groups| ==> groups[i].sender != groups[j].sender
  }

  ghost predicate Positive(groups: seq<Group>)
  {
    forall i :: 0 <= i < |groups| ==> groups[i].count >= 1
  }

  /** `r` is `groups` with one more message from `x` counted. */
  ghost predicate Bumped(groups: seq<Group>, x: UserId, r: seq<Group>)
  {
    && DistinctSenders(r)
    && (Positive(groups) ==> Positive(r))
    && (forall y :: HasSender(r, y) <==> HasSender(groups, y) || y == x)
    && (forall y :: CountOf(r, y) == CountOf(groups, y) + (if y == x then 1 else 0))
    && Sum(r) == Sum(groups) + 1
  }

  /** Counts one more message from `x`: bumps its group, or opens one. */
  function Bump(groups: seq<Group>, x: UserId): (r: seq<Group>)
    requires DistinctSenders(groups)
    ensures DistinctSenders(r)
    ensures Positive(groups) ==> Positive(r)
    ensures forall y :: HasSender(r, y) <==> HasSender(groups, y) || y == x
    ensures forall y :: CountOf(r, y) == CountOf(groups, y) + (if y == x then 1 else 0)
    ensures Sum(r) == Sum(groups) + 1
    decreases |groups|
  {
    if |groups| == 0 then
      var r := [Group(x, 1)];
      assert r[1..] == [];
      r
    else if groups[0].sender == x then
      var r := [groups[0].(count := groups[0].count + 1)] + groups[1..];
      BumpHead(groups, x);
      r
    else
      var tail := Bump(groups[1..], x);
      HeadNotInTail(groups);
      BumpCons(groups, x, tail);
      [groups[0]] + tail
  }

  lemma BumpHead(groups: seq<Group>, x: UserId)
    requires |groups| > 0 && DistinctSenders(groups) && groups[0].sender == x
    ensures Bumped(groups, x, [groups[0].(count := groups[0].count + 1)] + groups[1..])
  {
    var r := [groups[0].(count := groups[0].count + 1)] + groups[1..];
    assert r[1..] == groups[1..];
    HeadNotInTail(groups);
    NoGroupNoCount(groups[1..], x);
    HasSenderCons(groups);
    HasSenderCons(r);
    assert forall i :: 0 <= i < |r| ==> r[i].sender == groups[i].sender;
  }

  lemma BumpCons(groups: seq<Group>, x: UserId, tail: seq<Group>)
    requires |groups| > 0 && DistinctSenders(groups) && groups[0].sender != x
    requires Bumped(groups[1..], x, tail)
    ensures Bumped(groups, x, [groups[0]] + tail)
  {
    var r := [groups[0]] + tail;
    assert r[1..] == tail;
    assert Sum(tail) == Sum(groups[1..]) + 1;
    assert Sum(groups) == groups[0].count + Sum(groups[1..]);
    assert Sum(r) == groups[0].count + Sum(tail);
    HeadNotInTail(groups);
    HasSenderCons(groups);
    HasSenderCons(r);
    assert !HasSender(tail, groups[0].sender);
    assert forall j :: 0 <= j < |tail| ==> tail[j].sender != groups[0].sender;
  }

  /** With distinct senders, the first group's sender has no other group. */
  lemma HeadNotInTail(groups: seq<Group>)
    requires |groups| > 0 && DistinctSenders(groups)
    ensures !HasSender(groups[1..], groups[0].sender)
    ensures DistinctSenders(groups[1..])
  {
    forall i | 0 <= i < |groups[1..]|
      ensures groups[1..][i].sender != groups[0].sender
    {
      assert groups[1..][i] == groups[i + 1];
    }
  }

  lemma HasSenderCons(groups: seq<Group>)
    requires |groups| > 0
    ensures forall y :: HasSender(groups, y) <==> groups[0].sender == y || HasSender(groups[1..], y)
  {
    forall y | HasSender(groups, y)
      ensures groups[0].sender == y || HasSender(groups[1..], y)
    {
      var i :| 0 <= i < |groups| && groups[i].sender == y;
      if i > 0 {
        assert groups[1..][i - 1].sender == y;
      }
    }
    forall y | HasSender(groups[1..], y)
      ensures HasSender(groups, y)
    {
      var i :| 0 <= i < |groups[1..]| && groups[1..][i].sender == y;
      assert groups[i + 1].sender == y;
    }
  }

  lemma {:induction false} NoGroupNoCount(groups: seq<Group>, x: UserId)
    requires !HasSender(groups, x)
    ensures CountOf(groups, x) == 0
    decreases |groups|
  {
    if |groups| > 0 {
      HasSenderCons(groups);
      NoGroupNoCount(groups[1..], x);
    }
  }

  /** The `$group` stage over the caller's unread messages: one group per
      sender, in order of first appearance in the log. */
  function Groups(log: Log, user: UserId): (r: seq<Group>)
    ensures DistinctSenders(r) && Positive(r)
    ensures forall x :: CountOf(r, x) == UnreadFrom(log, user, x)
    ensures forall x :: HasSender(r, x) <==> UnreadFrom(log, user, x) > 0
    ensures Sum(r) == UnreadTotal(log, user)
    decreases |log|
  {
    if |log| == 0 then []
    else
      var init := log[..|log| - 1];
      var m := log[|log| - 1];
      assert log == init + [m];
      var g := Groups(init, user);
      forall x
        ensures UnreadFrom(log, user, x) == UnreadFrom(init, user, x) + (if m.recipient == user && !m.read && m.sender == x then 1 else 0)
      {
        CountSnoc(init, m, UnreadFromTest(user, x));
      }
      CountSnoc(init, m, UnreadTest(user));
      if m.recipient == user && !m.read then Bump(g, m.sender) else g
  }

  /** The `forEach` that copies each group into the response object, starting
      from `acc`. */
  function Collect(acc: map<UserId, nat>, groups: seq<Group>): (r: map<UserId, nat>)
    requires DistinctSenders(groups)
    ensures forall x :: x in r <==> x in acc || HasSender(groups, x)
    ensures forall x :: x in r ==> r[x] == if HasSender(groups, x) then CountOf(groups, x) else acc[x]
    decreases |groups|
  {
    if |groups| == 0 then acc
    else
      HasSenderCons(groups);
      assert !HasSender(groups[1..], groups[0].sender);
      Collect(acc[groups[0].sender := groups[0].count], groups[1..])
  }

  /** `GET /api/unread-messages`: sender id to the number of unread messages it
      sent the caller. Only senders with something unread appear. */
  function UnreadCounts(log: Log, user: UserId): (r: map<UserId, nat>)
    ensures forall x :: x in r <==> UnreadFrom(log, user, x) > 0
    ensures forall x :: x in r ==> r[x] == UnreadFrom(log, user, x) && r[x] >= 1
  {
    Collect(map[], Groups(log, user))
  }

  /** Sending adds one to the recipient's count for the sender and nothing
      to any other (user, sender) pair. */
  lemma SendUnreadFrom(log: Log, sender: UserId, recipient: UserId, content: string, now: int, user: UserId, x: UserId)
    ensures UnreadFrom(Send(log, sender, recipient, content, now), user, x)
         == UnreadFrom(log, user, x) + (if user == recipient && x == sender then 1 else 0)
  {
    var m := Message(sender, recipient, content, false, now);
    assert Send(log, sender, recipient, content, now) == log + [m];
    CountSnoc(log, m, UnreadFromTest(user, x));
  }

  /** One more unread message from `s` adds one to its entry and nothing else. */
  lemma OneMoreFrom(log: Log, log': Log, user: UserId, s: UserId)
    requires UnreadFrom(log', user, s) == UnreadFrom(log, user, s) + 1
    requires forall x :: x != s ==> UnreadFrom(log', user, x) == UnreadFrom(log, user, x)
    ensures UnreadCounts(log', user) == UnreadCounts(log, user)[s := UnreadFrom(log, user, s) + 1]
  {
    var expected := UnreadCounts(log, user)[s := UnreadFrom(log, user, s) + 1];
    var actual := UnreadCounts(log', user);
    assert forall x :: x in actual <==> x in expected;
    assert forall x :: x in actual ==> actual[x] == expected[x];
  }

  /** Sending adds one to the recipient's count for the sender and leaves
      every other count unchanged. */
  lemma SendCountsOnce(log: Log, sender: UserId, recipient: UserId, content: string, now: int)
    ensures UnreadCounts(Send(log, sender, recipient, content, now), recipient)
         == UnreadCounts(log, recipient)[sender := UnreadFrom(log, recipient, sender) + 1]
  {
    var after := Send(log, sender, recipient, content, now);
    forall x
      ensures UnreadFrom(after, recipient, x) == UnreadFrom(log, recipient, x) + (if x == sender then 1 else 0)
    {
      SendUnreadFrom(log, sender, recipient, content, now, recipient, x);
    }
    OneMoreFrom(log, after, recipient, sender);
  }

  /** Sending changes no other user's unread counts. */
  lemma SendLeavesOthersCounts(log: Log, sender: UserId, recipient: UserId, content: string, now: int, user: UserId)
    requires user != recipient
    ensures UnreadCounts(Send(log, sender, recipient, content, now), user) == UnreadCounts(log, user)
  {
    var after := Send(log, sender, recipient, content, now);
    forall x
      ensures UnreadFrom(after, user, x) == UnreadFrom(log, user, x)
    {
      SendUnreadFrom(log, sender, recipient, content, now, user, x);
    }
    CountsMap(after, user, UnreadCounts(log, user));
  }

  /** Three unread messages from `x` and one from `y`, all to `u`. */
  function ExampleLog(u: UserId, x: UserId, y: UserId, t: int): Log
  {
    [Message(x, u, "a", false, t), Message(x, u, "b", false, t + 1),
     Message(y, u, "c", false, t + 2), Message(x, u, "d", false, t + 3)]
  }

  lemma ExampleUnreadFrom(u: UserId, x: UserId, y: UserId, t: int, z: UserId)
    requires x != y
    ensures UnreadFrom(ExampleLog(u, x, y, t), u, z) == if z == x then 3 else if z == y then 1 else 0
  {
    var log := ExampleLog(u, x, y, t);
    var p := UnreadFromTest(u, z);
    CountSnoc([], log[0], p);
    CountSnoc(log[..1], log[1], p);
    CountSnoc(log[..2], log[2], p);
    CountSnoc(log[..3], log[3], p);
    assert [] + [log[0]] == log[..1];
    assert log[..1] + [log[1]] == log[..2];
    assert log[..2] + [log[2]] == log[..3];
    assert log[..3] + [log[3]] == log;
  }

  /** The unread counts are the one map that agrees with the reference counts. */
  lemma CountsMap(log: Log, user: UserId, expected: map<UserId, nat>)
    requires forall z :: z in expected <==> UnreadFrom(log, user, z) > 0
    requires forall z :: z in expected ==> expected[z] == UnreadFrom(log, user, z)
    ensures UnreadCounts(log, user) == expected
  {
    var r := UnreadCounts(log, user);
    assert forall z :: z in r <==> z in expected;
  }

  /** The grouping of that log gives the counts `{x: 3, y: 1}` and no other
      entry. */
  lemma UnreadExample(u: UserId, x: UserId, y: UserId, t: int)
    requires x != y
    ensures UnreadCounts(ExampleLog(u, x, y, t), u) == map[x := 3, y := 1]
  {
    var log := ExampleLog(u, x, y, t);
    var expected := map[x := 3, y := 1];
    forall z: UserId
      ensures (z in expected <==> UnreadFrom(log, u, z) > 0)
      ensures z in expected ==> expected[z] == UnreadFrom(log, u, z)
    {
      ExampleUnreadFrom(u, x, y, t, z);
    }
    CountsMap(log, u, expected);
  }
}

=== FILE: seqs.dfy ===
/** Sequence operations shared by the queries and list updates: JavaScript's
    order-preserving `filter`, the subsequence relation it establishes, and the
    sort-then-limit shape of the message queries. */
module Seqs {

  /** Keeps, in their original order, the elements of `s` satisfying `p`. */
  function Filter<T(!new)>(s: seq<T>, p: T -> bool): (r: seq<T>)
    ensures |r| <= |s|
    ensures forall x :: x in r <==> x in s && p(x)
  {
    if |s| == 0 then []
    else if p(s[0]) then [s[0]] + Filter(s[1..], p)
    else Filter(s[1..], p)
  }

  /** `a` can be obtained from `b` by deleting elements. Matching greedily
      against the first possible position is complete for this relation. */
  predicate IsSubsequence<T(==)>(a: seq<T>, b: seq<T>)
    decreases |b|
  {
    if |a| == 0 then true
    else if |b| == 0 then false
    else if a[0] == b[0] then IsSubsequence(a[1..], b[1..])
    else IsSubsequence(a, b[1..])
  }

  /** Every sequence is a subsequence of itself. */
  lemma {:induction false} SubsequenceRefl<T>(s: seq<T>)
    ensures IsSubsequence(s, s)
    decreases |s|
  {
    if |s| > 0 {
      SubsequenceRefl(s[1..]);
    }
  }

  /** Filtering deletes elements and never reorders the survivors. */
  lemma {:induction false} FilterIsSubsequence<T(!new)>(s: seq<T>, p: T -> bool)
    ensures IsSubsequence(Filter(s, p), s)
    decreases |s|
  {
    if |s| > 0 {
      FilterIsSubsequence(s[1..], p);
      var rest := Filter(s[1..], p);
      if !p(s[0]) && |rest| > 0 {
        assert rest[0] in rest;
        assert rest[0] != s[0];
      }
    }
  }

  /** Filtering an already filtered sequence with the same test changes nothing. */
  lemma {:induction false} FilterIdempotent<T(!new)>(s: seq<T>, p: T -> bool)
    ensures Filter(Filter(s, p), p) == Filter(s, p)
    decreases |s|
  {
    if |s| > 0 {
      FilterIdempotent(s[1..], p);
    }
  }

  /** A filter that every element passes is the identity. */
  lemma {:induction false} FilterKeepsAll<T(!new)>(s: seq<T>, p: T -> bool)
    requires forall i :: 0 <= i < |s| ==> p(s[i])
    ensures Filter(s, p) == s
    decreases |s|
  {
    if |s| > 0 {
      FilterKeepsAll(s[1..], p);
    }
  }

  /** Filtering with two tests that agree on every element gives the same result. */
  lemma {:induction false} FilterAgree<T(!new)>(s: seq<T>, p: T -> bool, q: T -> bool)
    requires forall i :: 0 <= i < |s| ==> p(s[i]) == q(s[i])
    ensures Filter(s, p) == Filter(s, q)
    decreases |s|
  {
    if |s| > 0 {
      FilterAgree(s[1..], p, q);
    }
  }

  /** Filtering distributes over concatenation. */
  lemma {:induction false} FilterAppend<T(!new)>(a: seq<T>, b: seq<T>, p: T -> bool)
    ensures Filter(a + b, p) == Filter(a, p) + Filter(b, p)
    decreases |a|
  {
    if |a| > 0 {
      assert (a + b)[0] == a[0];
      assert (a + b)[1..] == a[1..] + b;
      FilterAppend(a[1..], b, p);
    } else {
      assert a + b == b;
    }
  }

  /** Filtering keeps the multiplicity of every element that passes. */
  lemma {:induction false} FilterCounts<T(!new)>(s: seq<T>, p: T -> bool, x: T)
    requires p(x)
    ensures multiset(Filter(s, p))[x] == multiset(s)[x]
    decreases |s|
  {
    if |s| > 0 {
      FilterCounts(s[1..], p, x);
      assert s == [s[0]] + s[1..];
    }
  }

  /** `FilterCounts` for every element that passes the test at once. */
  lemma FilterKeepsCounts<T(!new)>(s: seq<T>, p: T -> bool)
    ensures forall x :: p(x) ==> multiset(Filter(s, p))[x] == multiset(s)[x]
  {
    forall x | p(x)
      ensures multiset(Filter(s, p))[x] == multiset(s)[x]
    {
      FilterCounts(s, p, x);
    }
  }

  /** No element occurs twice. */
  predicate NoDuplicates<T(==)>(s: seq<T>)
  {
    forall i, j :: 0 <= i < j < |s| ==> s[i] != s[j]
  }

  /** Appending a fresh element to a duplicate-free list keeps it duplicate-free. */
  lemma AppendFresh<T>(s: seq<T>, x: T)
    requires NoDuplicates(s) && x !in s
    ensures NoDuplicates(s + [x])
  {
    forall i, j | 0 <= i < j < |s + [x]|
      ensures (s + [x])[i] != (s + [x])[j]
    {
      if j == |s| {
        assert (s + [x])[i] == s[i];
      }
    }
  }

  /** Filtering a duplicate-free sequence leaves it duplicate-free. */
  lemma {:induction false} FilterNoDuplicates<T(!new)>(s: seq<T>, p: T -> bool)
    requires NoDuplicates(s)
    ensures NoDuplicates(Filter(s, p))
    decreases |s|
  {
    if |s| > 0 {
      FilterNoDuplicates(s[1..], p);
      var rest := Filter(s[1..], p);
      if p(s[0]) {
        assert s[0] !in s[1..];
        assert s[0] !in rest;
        forall i, j | 0 <= i < j < |[s[0]] + rest|
          ensures ([s[0]] + rest)[i] != ([s[0]] + rest)[j]
        {
          if i == 0 {
            assert ([s[0]] + rest)[j] == rest[j - 1];
          }
        }
      }
    }
  }

  function Min(a: int, b: int): int
  {
    if a <= b then a else b
  }

  /** JavaScript/MongoDB `limit(n)`: the first `n` elements, or all of them. */
  function Take<T>(s: seq<T>, n: nat): (r: seq<T>)
    ensures |r| == Min(n, |s|)
    ensures r == s[..|r|]
  {
    if |s| <= n then s else s[..n]
  }

  /** `s` is ordered by `key`, smallest first. */
  ghost predicate SortedBy<T>(s: seq<T>, key: T -> int)
  {
    forall i, j :: 0 <= i < j < |s| ==> key(s[i]) <= key(s[j])
  }

  /** Prepending an element no larger than every element keeps the order. */
  lemma ConsSorted<T>(h: T, t: seq<T>, key: T -> int)
    requires SortedBy(t, key)
    requires forall y :: y in t ==> key(h) <= key(y)
    ensures SortedBy([h] + t, key)
  {
    forall i, j | 0 <= i < j < |[h] + t|
      ensures key(([h] + t)[i]) <= key(([h] + t)[j])
    {
      assert ([h] + t)[j] == t[j - 1];
      if i > 0 {
        assert ([h] + t)[i] == t[i - 1];
      }
    }
  }

  /** Inserts `x` before the first element of `s` with a larger or equal key. */
  function Insert<T>(x: T, s: seq<T>, key: T -> int): (r: seq<T>)
    requires SortedBy(s, key)
    ensures SortedBy(r, key)
    ensures multiset(r) == multiset(s) + multiset{x}
    ensures forall y :: y in r ==> y == x || y in s
    decreases |s|
  {
    if |s| == 0 then [x]
    else if key(x) <= key(s[0]) then [x] + s
    else
      var tail := Insert(x, s[1..], key);
      assert multiset(s) == multiset{s[0]} + multiset(s[1..]) by {
        assert s == [s[0]] + s[1..];
      }
      ConsSorted(s[0], tail, key);
      [s[0]] + tail
  }

  /** Insertion sort by `key`, ascending; elements with equal keys keep their
      relative order. */
  function SortBy<T>(s: seq<T>, key: T -> int): (r: seq<T>)
    ensures SortedBy(r, key)
    ensures multiset(r) == multiset(s)
    decreases |s|
  {
    if |s| == 0 then []
    else
      assert s == [s[0]] + s[1..];
      Insert(s[0], SortBy(s[1..], key), key)
  }

  /** The shape `find(...).sort(key).limit(n)`: the `n` elements of `s` with the
      smallest keys, in key order. Every element left out has a key no smaller
      than any element kept. */
  function SmallestN<T(!new)>(s: seq<T>, key: T -> int, n: nat): (r: seq<T>)
    ensures |r| == Min(n, |s|)
    ensures SortedBy(r, key)
    ensures multiset(r) <= multiset(s)
    ensures |s| <= n ==> multiset(r) == multiset(s)
    ensures forall x, y :: x in s && x !in r && y in r ==> key(y) <= key(x)
  {
    var sorted := SortBy(s, key);
    var r := Take(sorted, n);
    assert sorted == r + sorted[|r|..];
    assert multiset(sorted) == multiset(r) + multiset(sorted[|r|..]);
    forall x, y | x in s && x !in r && y in r
      ensures key(y) <= key(x)
    {
      assert x in multiset(sorted);
      assert x in sorted;
      var i :| 0 <= i < |sorted| && sorted[i] == x;
      var j :| 0 <= j < |r| && r[j] == y;
      assert j < i;
      assert sorted[j] == y;
    }
    r
  }
}

=== FILE: sessions.dfy ===
/** The in-memory session store (`sessions`, talktome/backend/server.js:57)
    and the handlers over it: login (:96-118), logout (:121-129) and the
    `isAuthenticated` middleware (:133-161). The random token and the bcrypt
    comparison are parameters. */
module Sessions {
  import opened Api
  import opened Directory

  type Token = string

  /** What a session remembers of the user who logged in. */
  datatype Identity = Identity(username: string, role: string, id: UserId)

  type SessionMap = map<Token, Identity>

  datatype LoginReply = LoginReply(sessionId: Token, role: string)

  function IdentityOf(u: User): Identity
  {
    Identity(u.username, u.role, u.id)
  }

  /** `POST /api/login`. `matches(password, hash)` stands for `bcrypt.compare`
      and `token` for the random session id the handler draws. The new entry
      overwrites whatever the token named before. */
  function Login(users: Users, sessions: SessionMap, username: string, password: string,
                 token: Token, matches: (string, string) -> bool): (r: (Result<LoginReply>, SessionMap))
    ensures FindByUsername(users, username).None? ==> r == (Err(UserNotFound), sessions)
    ensures FindByUsername(users, username).Some? && !matches(password, FindByUsername(users, username).value.passwordHash)
      ==> r == (Err(InvalidPassword), sessions)
    ensures FindByUsername(users, username).Some? && matches(password, FindByUsername(users, username).value.passwordHash)
      ==> r.0.Ok?
    ensures r.0.Ok? ==>
      var u := FindByUsername(users, username).value;
      && matches(password, u.passwordHash)
      && r.0.value == LoginReply(token, u.role)
      && token in r.1 && r.1[token] == IdentityOf(u)
      && r.1[token].username == username
      && (forall t :: t != token ==> (t in r.1 <==> t in sessions))
      && (forall t :: t != token && t in sessions ==> r.1[t] == sessions[t])
      && (token !in sessions ==> |r.1| == |sessions| + 1)
  {
    match FindByUsername(users, username)
    case None => (Err(UserNotFound), sessions)
    case Some(u) =>
      if !matches(password, u.passwordHash) then (Err(InvalidPassword), sessions)
      else (Ok(LoginReply(token, u.role)), sessions[token := IdentityOf(u)])
  }

  /** `POST /api/logout`: removes exactly the given session, or reports an
      invalid session and changes nothing. */
  function Logout(sessions: SessionMap, token: Token): (r: (Result<()>, SessionMap))
    ensures token !in sessions ==> r == (Err(InvalidSession), sessions)
    ensures token in sessions ==>
      && r.0.Ok?
      && token !in r.1
      && (forall t :: t != token ==> (t in r.1 <==> t in sessions))
      && (forall t :: t in r.1 ==> r.1[t] == sessions[t])
      && |r.1| == |sessions| - 1
  {
    if token in sessions then (Ok(()), sessions - {token})
    else (Err(InvalidSession), sessions)
  }

  /** The `isAuthenticated` middleware. `header` is the `x-session-id` header;
      a missing or empty header is refused first, then an unknown token, then a
      token whose username no longer names a user. On success the request's user
      is the session record itself: the handler spreads the session over the
      looked-up id, so the session's own id wins. */
  function Authenticate(users: Users, sessions: SessionMap, header: Option<Token>): (r: Result<Identity>)
    ensures (header.None? || header.value == "") ==> r == Err(NoSessionId)
    ensures header.Some? && header.value != "" && header.value !in sessions ==> r == Err(InvalidSession)
    ensures r.Ok? <==>
      && header.Some? && header.value != "" && header.value in sessions
      && exists i :: 0 <= i < |users| && users[i].username == sessions[header.value].username
    ensures r.Ok? ==> r.value == sessions[header.value]
    ensures r.Err? && header.Some? && header.value != "" && header.value in sessions ==> r.error == SessionUserGone
  {
    if header.None? || header.value == "" then Err(NoSessionId)
    else if header.value !in sessions then Err(InvalidSession)
    else
      var session := sessions[header.value];
      match FindByUsername(users, session.username)
      case Some(_) => Ok(session)
      case None => Err(SessionUserGone)
  }

  /** Signing up, logging in with the same password and presenting the token
      authenticates as the new user, provided the hash of the password matches
      it (bcrypt's contract) and the token was not in use. */
  lemma SignupLoginAuthenticate(users: Users, sessions: SessionMap, username: string, email: string,
                                password: string, passwordHash: string, role: string,
                                learning: seq<string>, teaching: seq<string>,
                                token: Token, matches: (string, string) -> bool)
    requires !Taken(users, username, email)
    requires matches(password, passwordHash)
    requires token != ""
    ensures var (created, users') := Signup(users, username, email, passwordHash, role, learning, teaching);
      && created.Ok?
      && var (reply, sessions') := Login(users', sessions, username, password, token, matches);
      && reply == Ok(LoginReply(token, role))
      && Authenticate(users', sessions', Some(token)) == Ok(Identity(username, role, created.value))
  {
    var (created, users') := Signup(users, username, email, passwordHash, role, learning, teaching);
    assert users'[|users|].username == username;
    var found := FindByUsername(users', username);
    assert found == Some(users'[|users|]) by {
      FirstMatchAfterUnique(users, users'[|users|], username);
    }
  }

  /** Appending a record whose username nobody else has makes it the one
      `findOne({ username })` returns. */
  lemma {:induction false} FirstMatchAfterUnique(users: Users, u: User, username: string)
    requires u.username == username
    requires forall i :: 0 <= i < |users| ==> users[i].username != username
    ensures FindByUsername(users + [u], username) == Some(u)
    decreases |users|
  {
    if |users| == 0 {
      assert users + [u] == [u];
    } else {
      assert (users + [u])[1..] == users[1..] + [u];
      FirstMatchAfterUnique(users[1..], u, username);
    }
  }

  /** Logging out with the token a login just issued restores the sessions as
      they were before the login. */
  lemma LoginThenLogout(users: Users, sessions: SessionMap, username: string, password: string,
                        token: Token, matches: (string, string) -> bool)
    requires token !in sessions
    requires Login(users, sessions, username, password, token, matches).0.Ok?
    ensures Logout(Login(users, sessions, username, password, token, matches).1, token) == (Ok(()), sessions)
  {
    var after := Login(users, sessions, username, password, token, matches).1;
    assert after - {token} == sessions;
  }

  /** After logging out, the token no longer authenticates. */
  lemma LoggedOutTokenRefused(users: Users, sessions: SessionMap, token: Token)
    requires token != ""
    ensures Authenticate(users, Logout(sessions, token).1, Some(token)) == Err(InvalidSession)
  {
  }
}

=== FILE: signup_form.dfy ===
/** The sign-up page's own logic (talktome/frontend/src/pages/SignUp.js):
    ticking a language checkbox toggles that language in the learning or the
    teaching list (:70-84), and submitting refuses to send anything until the
    terms are accepted (:24-39). Rendering, navigation and the follow-up login
    are outside the model. */
module SignUpForm {
  import opened Api
  import opened Seqs

  /** The page state that the handlers read and write. */
  datatype Form = Form(
    username: string,
    email: string,
    password: string,
    role: string,
    learningLanguages: seq<string>,
    teachingLanguages: seq<string>,
    error: string,
    isLoading: bool,
    agreeToTerms: bool)

  /** The body posted to `/api/signup`. */
  datatype SignupRequest = SignupRequest(
    username: string,
    email: string,
    password: string,
    role: string,
    learningLanguages: seq<string>,
    teachingLanguages: seq<string>)

  const TermsError: string := "You must agree to the Terms and Conditions to sign up."

  /** `prev.filter((lang) => lang !== language)`. */
  function Remove(prev: seq<string>, language: string): (r: seq<string>)
    ensures language !in r
    ensures forall y :: y != language ==> (y in r <==> y in prev)
    ensures forall y :: y != language ==> multiset(r)[y] == multiset(prev)[y]
    ensures IsSubsequence(r, prev)
  {
    var keep := (l: string) => l != language;
    FilterIsSubsequence(prev, keep);
    assert forall y :: y != language ==> multiset(Filter(prev, keep))[y] == multiset(prev)[y] by {
      forall y | y != language
        ensures multiset(Filter(prev, keep))[y] == multiset(prev)[y]
      {
        FilterCounts(prev, keep, y);
      }
    }
    Filter(prev, keep)
  }

  /** The state update inside `handleLanguageChange`: a listed language is
      removed everywhere, an unlisted one is appended. */
  function Toggle(prev: seq<string>, language: string): (r: seq<string>)
    ensures language in r <==> language !in prev
    ensures forall y :: y != language ==> (y in r <==> y in prev)
    ensures language !in prev ==> r == prev + [language]
    ensures language in prev ==> IsSubsequence(r, prev)
    ensures forall y :: y != language ==> multiset(r)[y] == multiset(prev)[y]
  {
    if language in prev then Remove(prev, language) else prev + [language]
  }

  /** `handleLanguageChange(language, type)`: the kind "learning" edits the
      learning list, any other kind the teaching list; nothing else changes. */
  function HandleLanguageChange(f: Form, language: string, kind: string): (r: Form)
    ensures r.(learningLanguages := f.learningLanguages, teachingLanguages := f.teachingLanguages) == f
    ensures kind == "learning" ==>
      && r.learningLanguages == Toggle(f.learningLanguages, language)
      && r.teachingLanguages == f.teachingLanguages
      && (language in r.learningLanguages <==> language !in f.learningLanguages)
    ensures kind != "learning" ==>
      && r.teachingLanguages == Toggle(f.teachingLanguages, language)
      && r.learningLanguages == f.learningLanguages
      && (language in r.teachingLanguages <==> language !in f.teachingLanguages)
  {
    if kind == "learning" then f.(learningLanguages := Toggle(f.learningLanguages, language))
    else f.(teachingLanguages := Toggle(f.teachingLanguages, language))
  }

  /** `handleSubmit` up to the request: without consent it records the error
      and sends nothing; with consent it marks the form busy and posts the
      form's fields unchanged. */
  function HandleSubmit(f: Form): (r: (Form, Option<SignupRequest>))
    ensures r.1.Some? <==> f.agreeToTerms
    ensures !f.agreeToTerms ==> r.0.error == TermsError && r.0.(error := f.error) == f
    ensures f.agreeToTerms ==> r.0.isLoading && r.0.(isLoading := f.isLoading) == f
    ensures r.1.Some? ==>
      && r.1.value.username == f.username && r.1.value.email == f.email
      && r.1.value.password == f.password && r.1.value.role == f.role
      && r.1.value.learningLanguages == f.learningLanguages
      && r.1.value.teachingLanguages == f.teachingLanguages
  {
    if !f.agreeToTerms then (f.(error := TermsError), None)
    else (f.(isLoading := true),
          Some(SignupRequest(f.username, f.email, f.password, f.role, f.learningLanguages, f.teachingLanguages)))
  }

  /** Ticking an unticked language twice restores the list exactly. */
  lemma ToggleTwiceRestores(prev: seq<string>, language: string)
    requires language !in prev
    ensures Toggle(Toggle(prev, language), language) == prev
  {
    var keep := (l: string) => l != language;
    FilterAppend(prev, [language], keep);
    FilterKeepsAll(prev, keep);
  }

  /** Ticking twice restores which languages are chosen, even when the
      language was chosen to begin with (it then moves to the end). */
  lemma ToggleTwiceSameChoice(prev: seq<string>, language: string)
    ensures forall y :: y in Toggle(Toggle(prev, language), language) <==> y in prev
  {
  }

  /** The lists the checkboxes build never hold a language twice. */
  lemma ToggleKeepsNoDuplicates(prev: seq<string>, language: string)
    requires NoDuplicates(prev)
    ensures NoDuplicates(Toggle(prev, language))
  {
    if language in prev {
      FilterNoDuplicates(prev, (l: string) => l != language);
    } else {
      AppendFresh(prev, language);
    }
  }

  /** No request leaves the page unless the terms were accepted. */
  lemma NoRequestWithoutConsent(f: Form, language: string, kind: string)
    requires !f.agreeToTerms
    ensures HandleSubmit(f).1 == None
    ensures HandleSubmit(HandleLanguageChange(f, language, kind)).1 == None
  {
  }
}

=== FILE: text.dfy ===
/** The JavaScript string primitives the backend relies on: `toLowerCase`,
    unanchored substring search, `split` on one character and `join`. */
module Text {

  predicate IsUpper(c: char)
  {
    'A' <= c <= 'Z'
  }

  function LowerChar(c: char): (d: char)
    ensures !IsUpper(d)
    ensures !IsUpper(c) ==> d == c
  {
    if IsUpper(c) then (c as int - 'A' as int + 'a' as int) as char else c
  }

  /** `String.prototype.toLowerCase`, restricted to ASCII letters. */
  function Lower(s: string): (r: string)
    ensures |r| == |s|
    ensures forall i :: 0 <= i < |s| ==> r[i] == LowerChar(s[i])
  {
    seq(|s|, i requires 0 <= i < |s| => LowerChar(s[i]))
  }

  /** Lower-casing a string with no upper-case letter leaves it unchanged. */
  lemma LowerOfLower(s: string)
    requires forall i :: 0 <= i < |s| ==> !IsUpper(s[i])
    ensures Lower(s) == s
  {
  }

  /** `t` occurs in `s` starting at index `j`. */
  predicate OccursAt(t: string, s: string, j: nat)
  {
    j + |t| <= |s| && s[j..j + |t|] == t
  }

  /** Unanchored search: `t` occurs somewhere in `s`. */
  predicate Contains(s: string, t: string)
  {
    exists j :: 0 <= j <= |s| && OccursAt(t, s, j)
  }

  /** `Array.prototype.join(sep)`: the parts with `sep` between neighbours. */
  function Join(parts: seq<string>, sep: string): string
  {
    if |parts| == 0 then ""
    else if |parts| == 1 then parts[0]
    else parts[0] + sep + Join(parts[1..], sep)
  }

  /** `String.prototype.split(c)` for a one-character separator: the maximal
      pieces between occurrences of `c`; the empty string splits into `[""]`. */
  function Split(s: string, c: char): (r: seq<string>)
    ensures |r| >= 1
    ensures forall k :: 0 <= k < |r| ==> c !in r[k]
    decreases |s|
  {
    if |s| == 0 then [""]
    else
      var rest := Split(s[1..], c);
      if s[0] == c then [""] + rest
      else [[s[0]] + rest[0]] + rest[1..]
  }

  /** The first piece of `Split(s, c)` is the prefix of `s` before the first `c`. */
  lemma {:induction false} SplitHead(s: string, c: char)
    ensures |Split(s, c)[0]| <= |s|
    ensures Split(s, c)[0] == s[..|Split(s, c)[0]|]
    ensures |Split(s, c)[0]| < |s| ==> s[|Split(s, c)[0]|] == c
    decreases |s|
  {
    if |s| > 0 {
      SplitHead(s[1..], c);
    }
  }

  /** Splitting `w + t`, where `w` has no separator, glues `w` to the first
      piece of `t`. */
  lemma {:induction false} SplitPrefix(w: string, t: string, c: char)
    requires c !in w
    ensures Split(w + t, c) == [w + Split(t, c)[0]] + Split(t, c)[1..]
    decreases |w|
  {
    if |w| == 0 {
      assert w + t == t;
      assert w + Split(t, c)[0] == Split(t, c)[0];
      assert Split(t, c) == [Split(t, c)[0]] + Split(t, c)[1..];
    } else {
      assert (w + t)[1..] == w[1..] + t;
      assert (w + t)[0] == w[0];
      SplitPrefix(w[1..], t, c);
      assert [w[0]] + (w[1..] + Split(t, c)[0]) == w + Split(t, c)[0];
    }
  }

  /** Splitting undoes joining whenever no part contains the separator. */
  lemma {:induction false} SplitJoin(parts: seq<string>, c: char)
    requires |parts| >= 1
    requires forall k :: 0 <= k < |parts| ==> c !in parts[k]
    ensures Split(Join(parts, [c]), c) == parts
    decreases |parts|
  {
    if |parts| == 1 {
      SplitPrefix(parts[0], "", c);
      assert parts[0] + "" == parts[0];
    } else {
      var tail := Join(parts[1..], [c]);
      SplitJoin(parts[1..], c);
      assert parts[0] + [c] + tail == parts[0] + ([c] + tail);
      SplitPrefix(parts[0], [c] + tail, c);
      assert ([c] + tail)[1..] == tail;
      assert Split([c] + tail, c) == [""] + parts[1..];
      assert parts[0] + "" == parts[0];
      assert parts == [parts[0]] + parts[1..];
    }
  }
}

=== FILE: transcription.dfy ===
/** The speaker-labelling pass over the speech service's segments
    (`processTranscription`, talktome/backend/server.js:319-334). The label
    starts as "Speaker 1" and flips whenever the pause before a segment is
    longer than 1.5 seconds; each segment becomes one line `label: text`, and
    the lines are joined with newlines. Timestamps are exact reals. */
module Transcription {
  import opened Text

  datatype Segment = Segment(start: real, end: real, text: string)

  /** Pauses strictly longer than this many seconds switch the speaker. */
  const PauseThreshold: real := 1.5

  const Newline: char := '\n'

  datatype Speaker = Speaker1 | Speaker2

  function Label(s: Speaker): string
  {
    match s
    case Speaker1 => "Speaker 1"
    case Speaker2 => "Speaker 2"
  }

  function Other(s: Speaker): Speaker
  {
    match s
    case Speaker1 => Speaker2
    case Speaker2 => Speaker1
  }

  /** The pause before segment `i` is long enough to switch speakers. */
  predicate LongPause(segments: seq<Segment>, i: nat)
    requires 0 < i < |segments|
  {
    segments[i].start - segments[i - 1].end > PauseThreshold
  }

  /** How many of the segments `1..i` follow a long pause. */
  function PausesUpTo(segments: seq<Segment>, i: nat): nat
    requires i < |segments|
  {
    if i == 0 then 0
    else PausesUpTo(segments, i - 1) + (if LongPause(segments, i) then 1 else 0)
  }

  /** Reference definition of the speaker of segment `i`: the parity of the
      number of long pauses so far. */
  function SpeakerAt(segments: seq<Segment>, i: nat): Speaker
    requires i < |segments|
  {
    if PausesUpTo(segments, i) % 2 == 0 then Speaker1 else Speaker2
  }

  /** The output line for segment `i`. */
  function Line(segments: seq<Segment>, i: nat): (line: string)
    requires i < |segments|
    ensures line == "Speaker 1: " + segments[i].text || line == "Speaker 2: " + segments[i].text
  {
    Label(SpeakerAt(segments, i)) + ": " + segments[i].text
  }

  function Lines(segments: seq<Segment>): (lines: seq<string>)
    ensures |lines| == |segments|
    ensures forall i :: 0 <= i < |segments| ==> lines[i] == Line(segments, i)
  {
    seq(|segments|, i requires 0 <= i < |segments| => Line(segments, i))
  }

  /** The transcript the reference definition describes. */
  function Transcript(segments: seq<Segment>): string
  {
    Join(Lines(segments), [Newline])
  }

  /** `processTranscription`: walks the segments once, flipping the current
      label on long pauses, exactly as the handler does. */
  method ProcessTranscription(segments: seq<Segment>) returns (transcript: string)
    ensures transcript == Transcript(segments)
    ensures |segments| == 0 ==> transcript == ""
  {
    var processed: seq<string> := [];
    var currentSpeaker := "Speaker 1";
    var index := 0;
    while index < |segments|
      invariant 0 <= index <= |segments|
      invariant |processed| == index
      invariant forall k :: 0 <= k < index ==> processed[k] == Line(segments, k)
      invariant index == 0 ==> currentSpeaker == "Speaker 1"
      invariant 0 < index ==> currentSpeaker == Label(SpeakerAt(segments, index - 1))
    {
      if index > 0 {
        var pauseDuration := segments[index].start - segments[index - 1].end;
        if pauseDuration > PauseThreshold {
          FlippedLabel(SpeakerAt(segments, index - 1));
          currentSpeaker := if currentSpeaker == "Speaker 1" then "Speaker 2" else "Speaker 1";
        }
      }
      assert currentSpeaker == Label(SpeakerAt(segments, index));
      processed := processed + [currentSpeaker + ": " + segments[index].text];
      index := index + 1;
    }
    assert processed == Lines(segments);
    transcript := Join(processed, [Newline]);
  }

  /** The handler's string flip agrees with `Other`. */
  lemma FlippedLabel(s: Speaker)
    ensures (if Label(s) == "Speaker 1" then "Speaker 2" else "Speaker 1") == Label(Other(s))
  {
    assert "Speaker 1"[8] != "Speaker 2"[8];
  }

  /** The first segment is always attributed to Speaker 1. */
  lemma FirstSpeaker(segments: seq<Segment>)
    requires |segments| > 0
    ensures SpeakerAt(segments, 0) == Speaker1
  {
  }

  /** The speaker changes between neighbouring segments exactly when the pause
      between them is strictly longer than the threshold. */
  lemma SpeakerChangesIffLongPause(segments: seq<Segment>, i: nat)
    requires 0 < i < |segments|
    ensures SpeakerAt(segments, i) != SpeakerAt(segments, i - 1) <==> LongPause(segments, i)
    ensures LongPause(segments, i) ==> SpeakerAt(segments, i) == Other(SpeakerAt(segments, i - 1))
  {
  }

  /** One line per segment: when no segment text contains a newline, splitting
      the transcript at newlines gives back exactly the labelled lines. */
  lemma OneLinePerSegment(segments: seq<Segment>)
    requires |segments| > 0
    requires forall i :: 0 <= i < |segments| ==> Newline !in segments[i].text
    ensures Split(Transcript(segments), Newline) == Lines(segments)
    ensures |Split(Transcript(segments), Newline)| == |segments|
  {
    var lines := Lines(segments);
    forall k | 0 <= k < |lines|
      ensures Newline !in lines[k]
    {
      assert Newline !in Label(SpeakerAt(segments, k)) + ": ";
    }
    SplitJoin(lines, Newline);
  }

  /** The worked example, for any three texts: a 0.2 s pause keeps the
      speaker, a 2 s pause switches it. */
  lemma ExampleTranscript(a: string, b: string, c: string)
    ensures Lines([Segment(0.0, 1.0, a), Segment(1.2, 2.0, b), Segment(4.0, 5.0, c)])
         == ["Speaker 1: " + a, "Speaker 1: " + b, "Speaker 2: " + c]
    ensures Transcript([Segment(0.0, 1.0, a), Segment(1.2, 2.0, b), Segment(4.0, 5.0, c)])
         == "Speaker 1: " + a + "\n" + "Speaker 1: " + b + "\n" + "Speaker 2: " + c
  {
    var segments := [Segment(0.0, 1.0, a), Segment(1.2, 2.0, b), Segment(4.0, 5.0, c)];
    assert !LongPause(segments, 1) && LongPause(segments, 2);
    assert PausesUpTo(segments, 1) == 0 && PausesUpTo(segments, 2) == 1;
    assert SpeakerAt(segments, 0) == Speaker1 && SpeakerAt(segments, 1) == Speaker1;
    assert SpeakerAt(segments, 2) == Speaker2;
    assert "Speaker 1" + ": " == "Speaker 1: " && "Speaker 2" + ": " == "Speaker 2: ";
    var lines := Lines(segments);
    assert lines[0] == "Speaker 1: " + a;
    assert lines[1] == "Speaker 1: " + b;
    assert lines[2] == "Speaker 2: " + c;
    assert lines == ["Speaker 1: " + a, "Speaker 1: " + b, "Speaker 2: " + c];
    assert lines[1..][1..] == ["Speaker 2: " + c];
    assert Join(lines[1..], [Newline]) == "Speaker 1: " + b + "\n" + "Speaker 2: " + c;
  }

  /** The comparison is strict: a pause of exactly 1.5 s keeps the speaker. */
  lemma ThresholdPauseKeepsSpeaker(a: string, b: string)
    ensures SpeakerAt([Segment(0.0, 1.0, a), Segment(2.5, 3.0, b)], 1) == Speaker1
  {
    var segments := [Segment(0.0, 1.0, a), Segment(2.5, 3.0, b)];
    assert !LongPause(segments, 1);
    assert PausesUpTo(segments, 1) == 0;
  }
}

=== FILE: tutor_list.dfy ===
/** The client-side language filter of the tutor list
    (talktome/frontend/src/components/TutorList.js:44-56): with a language
    chosen, only tutors whose teaching languages are present and include it
    are shown; with none chosen, all fetched tutors are shown. */
module TutorList {
  import opened Api
  import opened Seqs
  import opened Directory

  /** A fetched tutor as the list sees it; `teachingLanguages` may be absent
      from the JSON. */
  datatype TutorCard = TutorCard(id: UserId, username: string, teachingLanguages: Option<seq<string>>)

  /** The filter callback: `tutor.teachingLanguages && tutor.teachingLanguages.includes(filterLanguage)`. */
  predicate Teaches(t: TutorCard, language: string)
  {
    t.teachingLanguages.Some? && language in t.teachingLanguages.value
  }

  /** The filter callback as a test on cards. */
  function TeachesTest(language: string): TutorCard -> bool
  {
    (t: TutorCard) => Teaches(t, language)
  }

  /** The effect that recomputes `filteredTutors`; the empty string is the
      "all languages" choice. */
  function FilteredTutors(tutors: seq<TutorCard>, filterLanguage: string): (r: seq<TutorCard>)
    ensures filterLanguage == "" ==> r == tutors
    ensures filterLanguage != "" ==> forall t :: t in r <==> t in tutors && Teaches(t, filterLanguage)
    ensures filterLanguage != "" ==>
      forall t :: Teaches(t, filterLanguage) ==> multiset(r)[t] == multiset(tutors)[t]
    ensures IsSubsequence(r, tutors)
  {
    if filterLanguage != "" then
      FilterIsSubsequence(tutors, TeachesTest(filterLanguage));
      FilterKeepsCounts(tutors, TeachesTest(filterLanguage));
      Filter(tutors, TeachesTest(filterLanguage))
    else
      SubsequenceRefl(tutors);
      tutors
  }

  /** Applying the same filter again changes nothing. */
  lemma FilterTwice(tutors: seq<TutorCard>, filterLanguage: string)
    ensures FilteredTutors(FilteredTutors(tutors, filterLanguage), filterLanguage) == FilteredTutors(tutors, filterLanguage)
  {
    if filterLanguage != "" {
      FilterIdempotent(tutors, TeachesTest(filterLanguage));
    }
  }

  /** How a profile from `/api/tutors` arrives in the list. */
  function Card(p: Profile): TutorCard
  {
    TutorCard(p.id, p.username, Some(p.teachingLanguages))
  }

  function Cards(ps: seq<Profile>): (r: seq<TutorCard>)
    ensures |r| == |ps|
    ensures forall i :: 0 <= i < |ps| ==> r[i] == Card(ps[i])
  {
    seq(|ps|, i requires 0 <= i < |ps| => Card(ps[i]))
  }

  /** Narrowing the cards of all tutors by a language on the client gives the
      cards of the tutors the server would return for that language. */
  lemma {:induction false} NarrowOnClient(ps: seq<Profile>, language: string)
    requires language != ""
    ensures Filter(Cards(Filter(ps, TutorQuery(None))), TeachesTest(language)) == Cards(Filter(ps, TutorQuery(Some(language))))
    decreases |ps|
  {
    if |ps| > 0 {
      var p := ps[0];
      var all := Filter(ps[1..], TutorQuery(None));
      var some := Filter(ps[1..], TutorQuery(Some(language)));
      NarrowOnClient(ps[1..], language);
      if TutorMatches(p, None) {
        assert Filter(ps, TutorQuery(None)) == [p] + all;
        CardsCons(p, all);
        if Teaches(Card(p), language) {
          assert Filter(ps, TutorQuery(Some(language))) == [p] + some;
          CardsCons(p, some);
        } else {
          assert Filter(ps, TutorQuery(Some(language))) == some;
        }
      } else {
        assert Filter(ps, TutorQuery(None)) == all;
        assert Filter(ps, TutorQuery(Some(language))) == some;
      }
    }
  }

  lemma CardsCons(p: Profile, ps: seq<Profile>)
    ensures Cards([p] + ps) == [Card(p)] + Cards(ps)
    ensures Cards([p] + ps)[0] == Card(p) && Cards([p] + ps)[1..] == Cards(ps)
  {
    assert Cards([p] + ps) == [Card(p)] + Cards(ps);
  }

  /** The list fetches every tutor (`/api/tutors` without a language) and
      filters on the client; what it shows for a chosen language is what the
      server would have returned for that language, in the same order. */
  lemma ClientFilterMatchesServer(users: Users, language: string)
    ensures FilteredTutors(Cards(FindTutors(users, None)), language) == Cards(FindTutors(users, Some(language)))
  {
    if language == "" {
      FilterAgree(Profiles(users), TutorQuery(None), TutorQuery(Some(language)));
    } else {
      NarrowOnClient(Profiles(users), language);
    }
  }
}

=== FILE: upload.dfy ===
/** The multer `fileFilter` of the transcription endpoint
    (talktome/backend/server.js:29-42): an upload is accepted when both its
    lower-cased file extension and its declared MIME type match the pattern
    `/flac|m4a|mp3|mp4|mpeg|mpga|oga|ogg|wav|webm/`. The pattern is not
    anchored, so a match means "one of the alternatives occurs somewhere". */
module Upload {
  import opened Api
  import opened Text

  /** The alternatives of the pattern, in the order the pattern lists them. */
  const FileTypes: seq<string> := ["flac", "m4a", "mp3", "mp4", "mpeg", "mpga", "oga", "ogg", "wav", "webm"]

  /** The error the filter hands to multer. */
  const UnsupportedFormat: string :=
    "Error: Unsupported file format. Supported formats: flac, m4a, mp3, mp4, mpeg, mpga, oga, ogg, wav, webm"

  datatype Verdict = Accept | Reject(message: string)

  /** What the pattern means: some alternative occurs somewhere in `s`. */
  predicate MentionsAudioType(s: string)
  {
    exists k :: 0 <= k < |FileTypes| && Contains(s, FileTypes[k])
  }

  /** Tries the alternatives `k..` at position `j` of `s`. */
  function AlternativeAt(s: string, j: nat, k: nat): (r: bool)
    requires k <= |FileTypes|
    ensures r <==> exists a :: k <= a < |FileTypes| && OccursAt(FileTypes[a], s, j)
    decreases |FileTypes| - k
  {
    if k == |FileTypes| then false
    else OccursAt(FileTypes[k], s, j) || AlternativeAt(s, j, k + 1)
  }

  /** The regular-expression scan: tries every start position from `j` on. */
  function ScanFrom(s: string, j: nat): (r: bool)
    requires j <= |s|
    ensures r <==> exists a, i :: 0 <= a < |FileTypes| && j <= i <= |s| && OccursAt(FileTypes[a], s, i)
    decreases |s| - j
  {
    if j == |s| then AlternativeAt(s, j, 0)
    else AlternativeAt(s, j, 0) || ScanFrom(s, j + 1)
  }

  /** `filetypes.test(s)`: the scan from the start finds exactly the strings
      that mention one of the alternatives. */
  function Test(s: string): (r: bool)
    ensures r <==> MentionsAudioType(s)
  {
    var r := ScanFrom(s, 0);
    assert r ==> MentionsAudioType(s) by {
      if r {
        var a, i :| 0 <= a < |FileTypes| && 0 <= i <= |s| && OccursAt(FileTypes[a], s, i);
        assert Contains(s, FileTypes[a]);
      }
    }
    r
  }

  /** Index of the last `c` in `s`, if any. */
  function LastIndexOf(s: string, c: char): (r: Option<nat>)
    ensures r.None? ==> c !in s
    ensures r.Some? ==> r.value < |s| && s[r.value] == c && c !in s[r.value + 1..]
  {
    if |s| == 0 then None
    else if s[|s| - 1] == c then Some(|s| - 1)
    else
      var r := LastIndexOf(s[..|s| - 1], c);
      assert r.Some? ==> s[r.value + 1..] == s[..|s| - 1][r.value + 1..] + [s[|s| - 1]];
      r
  }

  /** The last path component of a POSIX path. */
  function BaseName(path: string): (r: string)
    ensures '/' !in r
    ensures |r| <= |path| && r == path[|path| - |r|..]
  {
    match LastIndexOf(path, '/')
    case None => path
    case Some(k) => path[k + 1..]
  }

  /** `path.extname`: from the last `.` of the last path component to the end,
      unless that component has no `.` after its first character. */
  function ExtName(path: string): (r: string)
    ensures var base := BaseName(path);
      && (r == "" <==> forall i :: 0 < i < |base| ==> base[i] != '.')
      && (r != "" ==> r[0] == '.' && '.' !in r[1..] && |r| < |base| && r == base[|base| - |r|..])
  {
    var base := BaseName(path);
    match LastIndexOf(base, '.')
    case None => ""
    case Some(k) =>
      if k == 0 then
        assert forall i :: 0 < i < |base| ==> base[i] in base[1..];
        ""
      else
        assert forall i :: k < i < |base| ==> base[i] in base[k + 1..];
        base[k..]
  }

  /** The filter: accept iff the lower-cased extension and the declared MIME type
      both mention an allowed type; otherwise reject with the fixed message. */
  function FileFilter(originalName: string, mimetype: string): (v: Verdict)
    ensures v.Accept? <==> MentionsAudioType(Lower(ExtName(originalName))) && MentionsAudioType(mimetype)
    ensures v.Reject? ==> v.message == UnsupportedFormat
  {
    var extOk := Test(Lower(ExtName(originalName)));
    var mimeOk := Test(mimetype);
    if mimeOk && extOk then Accept else Reject(UnsupportedFormat)
  }

  /** Every alternative starts with one of these letters. */
  predicate InitialLetter(c: char)
  {
    c in "fmow"
  }

  /** A string without any initial letter of an alternative mentions none. */
  lemma NoInitialLetterNoMatch(s: string)
    requires forall i :: 0 <= i < |s| ==> !InitialLetter(s[i])
    ensures !MentionsAudioType(s)
  {
    forall k, j | 0 <= k < |FileTypes| && 0 <= j <= |s|
      ensures !OccursAt(FileTypes[k], s, j)
    {
      assert InitialLetter(FileTypes[k][0]);
      if j < |s| {
        assert !InitialLetter(s[j]);
      }
    }
  }

  /** For a name without directories, the extension starts at its last dot,
      provided that dot is not the first character. */
  lemma ExtNameOfFileName(name: string, k: nat)
    requires '/' !in name
    requires 0 < k < |name| && name[k] == '.' && '.' !in name[k + 1..]
    ensures ExtName(name) == name[k..]
  {
  }

  /** One occurrence of one alternative is enough for a match. */
  lemma MatchAt(s: string, k: nat, j: nat)
    requires k < |FileTypes| && OccursAt(FileTypes[k], s, j)
    ensures MentionsAudioType(s)
  {
    assert Contains(s, FileTypes[k]);
  }

  /** An extension already in lower case that mentions an allowed type, with
      a MIME type that mentions one too, is accepted. */
  lemma AcceptedWithLowerCaseExtension(name: string, ext: string, mimetype: string)
    requires ExtName(name) == ext
    requires forall i :: 0 <= i < |ext| ==> !IsUpper(ext[i])
    requires MentionsAudioType(ext) && MentionsAudioType(mimetype)
    ensures FileFilter(name, mimetype) == Accept
  {
    LowerOfLower(ext);
  }

  /** `.mp3` followed by any lower-case text mentions an allowed type. */
  lemma Mp3PrefixMatches(more: string)
    requires forall i :: 0 <= i < |more| ==> !IsUpper(more[i])
    ensures forall i :: 0 <= i < |".mp3" + more| ==> !IsUpper((".mp3" + more)[i])
    ensures MentionsAudioType(".mp3" + more)
  {
    MatchAt(".mp3" + more, 2, 1);
  }

  /** The extension of `<stem>.mp3<more>` is `.mp3<more>`. */
  lemma Mp3Extension(stem: string, more: string)
    requires |stem| > 0 && '/' !in stem
    requires '/' !in more && '.' !in more
    ensures ExtName(stem + ".mp3" + more) == ".mp3" + more
  {
    var name := stem + ".mp3" + more;
    assert name == stem + (".mp3" + more);
    assert name[|stem|..] == ".mp3" + more;
    assert name[|stem| + 1..] == "mp3" + more;
    ExtNameOfFileName(name, |stem|);
  }

  /** The match is unanchored: any file named `<stem>.mp3<more>` passes the
      extension test, whatever lower-case letters follow the `mp3`. */
  lemma UnanchoredExtensionAccepted(stem: string, more: string, mimetype: string)
    requires |stem| > 0 && '/' !in stem
    requires '/' !in more && '.' !in more
    requires forall i :: 0 <= i < |more| ==> !IsUpper(more[i])
    requires MentionsAudioType(mimetype)
    ensures FileFilter(stem + ".mp3" + more, mimetype) == Accept
  {
    Mp3Extension(stem, more);
    Mp3PrefixMatches(more);
    AcceptedWithLowerCaseExtension(stem + ".mp3" + more, ".mp3" + more, mimetype);
  }

  /** Whatever the file is called, a MIME type that names no allowed type is
      refused. */
  lemma ForeignMimeTypeRejected(name: string, mimetype: string)
    requires forall i :: 0 <= i < |mimetype| ==> !InitialLetter(mimetype[i])
    ensures FileFilter(name, mimetype) == Reject(UnsupportedFormat)
  {
    NoInitialLetterNoMatch(mimetype);
  }

  /** A plain-text upload is refused with the unsupported-format message. */
  lemma TextFileRejected()
    ensures FileFilter("notes.txt", "text/plain") == Reject(UnsupportedFormat)
  {
    ExtNameOfFileName("notes.txt", 5);
    assert Lower(".txt") == ".txt";
    NoInitialLetterNoMatch(".txt");
  }
}
